=== FILE: README.md ===
# AI Assistant for Blender, modelled in Dafny

The repository holds two Blender add-ons that send text to a hosted chat-completion
service and execute the Python it sends back.

- `texture_and_prompt.py` (the "AI Texture Generator" panel) does four things:
  - It summarises the shader nodes of the active material (`collect_shader_nodes`).
  - It asks the service for a script that adjusts those nodes (`get_adjustment_script`).
  - It cuts the code out of the reply (`extract_python_code`) and executes it.
  - Its "Apply to Selected Object" operator puts the generated material into the first
    material slot of the active mesh.
- `ai_assistant.py` (the "AI Assistant" panel) does four things:
  - It summarises the scene's objects (`get_scene_summary`).
  - It builds the user message "Scene Overview: … Task: …".
  - It cuts the code out of the reply (`extract_code_block`).
  - Its operator either stores a step-by-step plan or executes the generated code,
    depending on the selected mode.

The model is made of five modules:

- `Wrappers`: `Option` and `Result`.
- `Text`:
  - Python's whitespace class, shared by `str.strip()` and the regular-expression
    class `\s`;
  - `Strip` and its characterisation;
  - substring search;
  - `str.join` with any separator, and `str.split` on one character, which gives back the
    parts of a join of separator-free parts;
  - fence-free text and the stripped body of a block.
- `Host`: the parts of Blender's object model the add-ons read or write, as immutable values.
- `TextureAndPrompt`: one section per function or operator of `texture_and_prompt.py`.
- `AiAssistant`: one section per function or operator of `ai_assistant.py`.

How things outside the code are represented:

- Each remote service is a function parameter from a `Request` to either the reply text
  or the text of the exception the call raised.
- Python's `exec` is a parameter from the script to either "executed" or "raised with
  this message".
- Rounding to three decimals is a parameter `round3: real -> string`.
- Values the host prints with `repr` carry their printed text: node and object
  locations, and lists or host arrays that are printed unchanged.

Each regular expression is specified without regular expressions.

- A *match* at position `i` is a predicate over the positions of:
  - the opening fence;
  - the start of the captured body;
  - the closing fence, which is the first fence after the body starts.
- The *first* match is a match with no match starting further left.
- The scanners (`ScanPython`, `ScanCodeBlock`) compute these matches. Their contracts
  tie them to the predicates.

How the two patterns behave:

- In `extract_python_code`'s pattern the two ways the opening can continue exclude
  each other. A newline and the letter `p` cannot both follow the fence.
- In `extract_code_block`'s pattern the engine takes the optional `python` and the
  whole whitespace run greedily. Backtracking into them cannot reach a closing fence
  that the greedy path misses, because the characters given back are letters and
  whitespace, never backticks.
- The model therefore uses the greedy reading. It proves that this pattern matches
  exactly when the reply holds two fences that do not overlap.

Behaviours of the code worth knowing when reading the model:

- Without a fenced block, both extractors return the reply *stripped*, not the raw reply.
- `collect_shader_nodes` lists linked inputs too, printed as `Linked`. It lists every
  input that has a name and is enabled.
- Only a Python `list` or `tuple` with more than three elements is cut to four rounded
  values. A shorter list or tuple is printed unrounded. Blender's own vector and color
  values are host arrays, not lists or tuples, so they are printed unchanged
  (`OtherValue`).
- A scene without objects gives an empty summary, not zero lines: `"".split("\n")` is `[""]`.

## Model

| member | source | states |
|---|---|---|
| Text.Strip | texture_and_prompt.py:59 | `str.strip()`: the result starts and ends with non-whitespace, is a slice of the input, and only whitespace is cut off on either side |
| Text.StripCharacterised | ai_assistant.py:23 | any split of a string into whitespace, a stripped middle and whitespace has that middle as its `strip()` |
| Text.StripIdempotent | ai_assistant.py:44 | stripping a stripped string changes nothing, so stripping twice is stripping once |
| Text.SplitJoin | ai_assistant.py:29 | splitting a newline join of newline-free lines at newlines gives back the lines |
| Text.StrippedSliceHasNoFence | texture_and_prompt.py:58-59 | the body between an opening and the first closing fence, stripped, holds no fence |
| TextureAndPrompt.PythonOpeningUnique | texture_and_prompt.py:58 | the two openings `` ```\n `` and `` ```python\n `` at one fence exclude each other, so the body start is fixed |
| TextureAndPrompt.ExtractPythonCode | texture_and_prompt.py:57-59 | the result is stripped; without a match it is the whole reply stripped; otherwise it is the stripped body of the leftmost match, and it holds no fence |
| TextureAndPrompt.ExtractPythonCodeIdempotent | texture_and_prompt.py:57-59 | extracting from the extracted code changes nothing |
| TextureAndPrompt.ExtractPythonCodeOfFirstBlock | texture_and_prompt.py:58-59 | for a reply in which a block opens with a newline or `python` and a newline, and no fence starts before that block or inside its body (single backticks, as in inline code, are allowed), the result is that block's body stripped, whatever follows |
| TextureAndPrompt.ExtractPythonCodeExample | texture_and_prompt.py:58-59 | `` "Here:\n```python\nx=1\n```\nDone" `` yields `"x=1"` |
| TextureAndPrompt.ExtractPythonCodeTwoBlocks | texture_and_prompt.py:58-59 | of two fenced blocks only the first one's body is returned (`findall(...)[0]`) |
| TextureAndPrompt.ExtractPythonCodeOtherTag | texture_and_prompt.py:58-59 | a block tagged `js` is no match, so the whole reply comes back unchanged |
| TextureAndPrompt.ShowValue | texture_and_prompt.py:44-52 | a linked input shows `Linked`; an unlinked one without a default value shows `None`; a float is rounded; a list or tuple longer than three becomes its first four values rounded; anything else is shown as is (each case as an if-and-only-if); the value shown is the input's own default: the float itself, its first four items, or its printed text |
| TextureAndPrompt.ListInputs | texture_and_prompt.py:41-43 | exactly the inputs that have a name and are enabled are listed, each with its shown value |
| TextureAndPrompt.ListInputsAppend | texture_and_prompt.py:42-53 | the inputs are listed in socket order: listing distributes over concatenation |
| TextureAndPrompt.ListedInputShown | texture_and_prompt.py:42-53 | every named, enabled input has its `  Input: <name> = <value>` line in its node's stanza |
| TextureAndPrompt.UnlinkedFloatShownRounded | texture_and_prompt.py:47-53 | an unlinked, named, enabled float input appears in its node's stanza with its default value rounded to three decimals |
| TextureAndPrompt.ValueText | texture_and_prompt.py:44-53 | the value is printed as `Linked`, `None`, the rounded number, its own printed text, or a parenthesised tuple, which for four numbers is `(<a>, <b>, <c>, <d>)` with each one rounded |
| TextureAndPrompt.TupleText | texture_and_prompt.py:49-50 | a tuple of four numbers is printed `(<a>, <b>, <c>, <d>)` with each number rounded to three decimals, and every tuple is printed in parentheses |
| TextureAndPrompt.UnlinkedTupleShownRounded | texture_and_prompt.py:47-53 | an unlinked, named, enabled input holding more than three numbers appears in its node's stanza as the tuple of its first four numbers, each rounded to three decimals |
| TextureAndPrompt.NodeHeader | texture_and_prompt.py:38-39 | a stanza's header is the line `--- Node: <name> ---` after a newline, then `Type: <type>, Label: <label>, Location: <location>`: name, type, label and location each at its place, and nothing else (the length is theirs plus 44) |
| TextureAndPrompt.NodeText | texture_and_prompt.py:38-53 | a node's stanza is its header followed by the input lines of its sockets, and the header alone for a node without inputs |
| TextureAndPrompt.SocketsText | texture_and_prompt.py:41-53 | a node's input lines are empty exactly when none of its sockets is named and enabled |
| TextureAndPrompt.SocketsTextAppend | texture_and_prompt.py:42-53 | the input lines follow socket order: the lines of `a + b` are those of `a` followed by those of `b` |
| TextureAndPrompt.SocketsTextSingle | texture_and_prompt.py:43-53 | one socket contributes exactly its `  Input: <name> = <value>` line when it is named and enabled, and nothing otherwise |
| TextureAndPrompt.LinkedInputShownAsLinked | texture_and_prompt.py:42-53 | a named, enabled, linked input appears in its node's stanza as `  Input: <name> = Linked`, whatever its default value |
| TextureAndPrompt.NodesText | texture_and_prompt.py:35-39 | the node text is empty exactly when the tree has no nodes, and otherwise starts with the newline of the first stanza |
| TextureAndPrompt.NodesTextAppend | texture_and_prompt.py:37-53 | the summary is the stanzas in node order and nothing else: it distributes over concatenation of the node list |
| TextureAndPrompt.NodesTextSingle | texture_and_prompt.py:37-53 | a tree with one node gives exactly that node's stanza |
| TextureAndPrompt.NodeStanzaInSummary | texture_and_prompt.py:37-53 | every node of the tree has its full stanza in the summary |
| TextureAndPrompt.CollectShaderNodes | texture_and_prompt.py:29-54 | the sentinel `No valid material with nodes found.` comes back exactly when there is no active object, no active material, or a material without nodes |
| TextureAndPrompt.AdjustPrompt | texture_and_prompt.py:70-86 | the user message is the template filled in: the expert introduction, the node summary, the fixed text leading to the instruction, the instruction, and the constraints, each at its place and nothing else (the length is the five pieces') |
| TextureAndPrompt.AdjustPromptCarriesContext | texture_and_prompt.py:70-86 | the request's user message contains the node summary and the user's instruction verbatim |
| TextureAndPrompt.AdjustRequest | texture_and_prompt.py:64-89 | the adjustment request goes to `deepseek/deepseek-r1-0528:free` without a system message, and its only user message is the template filled with the node summary of the active object and the instruction |
| TextureAndPrompt.GetAdjustmentScript | texture_and_prompt.py:62-93 | when the call raises the script is `# Error generating script`; otherwise it is the code extracted from the reply |
| TextureAndPrompt.AdjustmentScriptIsExtracted | texture_and_prompt.py:62-93 | whatever the service does, the script is a fixed point of extraction, the error fallback included |
| TextureAndPrompt.FallbackIsExtracted | texture_and_prompt.py:93 | the fallback `# Error generating script` holds no fence and is already stripped, so extraction leaves it unchanged |
| TextureAndPrompt.AdjustMaterial | texture_and_prompt.py:201-213 | the operator always finishes; it reports `Material adjusted with AI.` at Info level exactly when the script executed, and `Script execution failed: <e>` at Error level when it raised |
| TextureAndPrompt.AdjustMaterialRunsBlockCode | texture_and_prompt.py:203-208 | when the reply holds a block, the script handed to `exec` holds no fence of the reply's markdown |
| TextureAndPrompt.ApplyToObject | texture_and_prompt.py:176-194 | it finishes exactly when a generated material is recorded and exists and the active object is a mesh; otherwise it cancels with the matching error and changes nothing; on success the material is the only slot of an object without slots, or replaces slot 0 with every other slot and field kept |
| TextureAndPrompt.ApplyToObjectIdempotent | texture_and_prompt.py:187-191 | applying twice gives the same outcome as applying once |
| TextureAndPrompt.AppliedMaterialIsSummarised | texture_and_prompt.py:187-191 | after applying a node material to an object whose active slot is slot 0, the node summary describes the generated material |
| AiAssistant.CodeBlockOpeningUnique | ai_assistant.py:22 | the maximal whitespace run after the optional tag fixes where the group starts |
| AiAssistant.ExtractCodeBlock | ai_assistant.py:21-23 | the result is stripped; without a match it is the whole reply stripped; otherwise it is the stripped group of the leftmost match, and it holds no fence |
| AiAssistant.CodeBlockMatchIffTwoFences | ai_assistant.py:22 | the pattern matches exactly when the reply holds two fences that do not overlap |
| AiAssistant.ExtractCodeBlockFallback | ai_assistant.py:23 | with fewer than two non-overlapping fences the result is the whole reply stripped |
| AiAssistant.ExtractCodeBlockIdempotent | ai_assistant.py:21-23 | extracting from the extracted code changes nothing |
| AiAssistant.ExtractCodeBlockOfFirstBlock | ai_assistant.py:22-23 | for a reply in which no fence starts before a block or inside it (single backticks allowed), the result is the block's inside without a leading `python`, stripped, whatever follows |
| AiAssistant.ExtractCodeBlockOfMatch | ai_assistant.py:22-23 | the whitespace skipped by `\s*` makes no difference: the result is the stripped text between the tag and the closing fence |
| AiAssistant.ExtractCodeBlockExample | ai_assistant.py:22-23 | `` "Here:\n```python\nx=1\n```\nDone" `` yields `"x=1"` |
| AiAssistant.ExtractCodeBlockOtherTag | ai_assistant.py:22-23 | a `js` tag stays in the code: `` "```js\ncode```" `` yields `"js\ncode"` |
| AiAssistant.ObjectLine | ai_assistant.py:28 | an object's line is `Name: <name>, Type: <type>, Location: <location>`: name, type and location each at its place, and nothing else (the length is theirs plus 26) |
| AiAssistant.SceneSummary | ai_assistant.py:25-29 | the summary is empty exactly when the scene has no objects, and otherwise starts with `Name: ` |
| AiAssistant.SceneSummarySingle | ai_assistant.py:26-29 | a scene of one object is summarised by that object's line alone, whatever its fields hold |
| AiAssistant.SceneSummaryAppend | ai_assistant.py:26-29 | for any fields, the summary of two non-empty scenes one after the other is their summaries joined by one newline, so the summary is the object lines in scene order with nothing else |
| AiAssistant.SceneSummaryLines | ai_assistant.py:26-29 | with single-line names, types and locations, splitting the summary at newlines gives exactly one `Name: …, Type: …, Location: …` line per object, in scene order |
| AiAssistant.SceneSummaryHasNoMarker | ai_assistant.py:28-29 | such a summary never contains the `\n\nTask: ` marker |
| AiAssistant.UserMessage | ai_assistant.py:52 | the message is the header `Scene Overview:\n`, the summary, the marker `\n\nTask: ` and the prompt, and nothing more |
| AiAssistant.UserMessageRoundTrip | ai_assistant.py:52 | the message `Scene Overview:\n<summary>\n\nTask: <prompt>` reads back as that summary and that prompt whenever the summary lacks the marker |
| AiAssistant.ParseUserMessageInverse | ai_assistant.py:52 | every message that reads back was built by the template from what it reads back as |
| AiAssistant.DirectRequest | ai_assistant.py:51-60 | the direct request goes to the DeepSeek model with the fixed system message; its user message is the template filled with the scene summary and the prompt for every scene, and with single-line fields it reads back as that summary and prompt |
| AiAssistant.StepRequest | ai_assistant.py:37-43 | the step-by-step request goes to the Mistral model with the fixed system message, and its user message is the prompt alone, without the scene |
| AiAssistant.DirectRequestCarriesSceneAndPrompt | ai_assistant.py:51-58 | the direct request's user message reads back as the scene summary and the prompt |
| AiAssistant.StepByStepThoughts | ai_assistant.py:31-47 | a reply comes back stripped, with only whitespace cut off either side; a raised call gives `# Error occurred: <e>` |
| AiAssistant.StepByStepThoughtsIsStrippedReply | ai_assistant.py:44 | the plan is exactly the reply's `strip()` |
| AiAssistant.InvokeAiLogic | ai_assistant.py:49-68 | a reply gives the code extracted from it; a raised call gives `# Error occurred: <e>` |
| AiAssistant.Generate | ai_assistant.py:95-114 | the operator always finishes; step-by-step mode stores the plan, reports `Step-by-step reasoning generated.` and executes nothing; direct mode executes the generated code and reports success or `Execution failed: <e>` |
| AiAssistant.StepByStepNeverExecutes | ai_assistant.py:99-103 | in step-by-step mode the outcome is the same whatever `exec` does, and the plan does not depend on the scene's objects |
| AiAssistant.DirectFailureExecutesErrorComment | ai_assistant.py:105-109 | when the direct call raises, the `# Error occurred: <e>` comment is what gets executed, and if that runs the operator reports success |

## Left out

- Network calls, API keys, and the clients' construction and response shape (`choices[0].message.content`) are left out. A service is a function from requests to a reply or an error text. A reply of `None` counts as an error, because extracting from it or stripping it raises inside the same `try`.
- The Python evaluation of generated code (`exec`, and `textwrap.dedent` before it) is left out. It is a parameter, and its effect on the scene is not modelled.
- `print` logging to the console is left out. It has no effect the add-ons observe.
- Float rounding and `repr` formatting are left out, because they are floating-point printing. `round(x, 3)` is the parameter `round3`, and the printed location tuples are given as text. The two-decimal rounding of `get_scene_summary` is part of that text.
- `generate_texture_image` and `AITX_OT_generate_material` are not part of this model. They are HTTP and file I/O, image loading and node-graph construction inside Blender.
- The panels' `draw`/`poll`, and `register`/`unregister`, are left out. They are host UI and registration with no logic.
- TextureAndPrompt.ApplyToObject: an object's material slots are modelled as the slots of its data block (`obj.data.materials`), held by the active object alone. In Blender other objects that share the mesh see the new slot 0 too; the model's "nothing else changes" is about the modelled state only. The report uses `mat.name`, which is the looked-up key.
- AiAssistant.Generate: in direct mode the returned scene is the scene given, because the effect of `exec(generated_code, globals())` on the scene, which is what the code is run for, is not modelled.
- AiAssistant.SceneSummaryLines: a name, type or location that contains a newline would add lines. The host allows such names, so the property is stated for single-line fields only.
- Exceptions raised outside the `try` blocks (inside `collect_shader_nodes` or the host itself) are left out. The model's host values cannot raise.

=== FILE: ai_assistant.dfy ===
/** The scene assistant plugin (ai_assistant.py): the code extractor applied to the model's
    reply, the scene summary and prompt sent to the model, and the operator that either
    stores a step-by-step plan or executes the generated code. */
module AiAssistant {
  import opened Wrappers
  import opened Text
  import opened Host

  // ===========================================================================
  // extract_code_block: the first fenced block, or the whole reply, stripped.
  //
  // The regular expression is "```(?:python)?\s*([\s\S]*?)```" and `re.search`
  // returns its leftmost match. Stated without regular expressions: a match at
  // `i` is a fence at `i`, then "python" if it is there (the optional group is
  // greedy), then the whole whitespace run that follows (greedy `\s*`), then a
  // body that ends at the first fence after it. The engine would backtrack into
  // the optional group and the whitespace run only if that failed, and neither
  // retreat can reach a closing fence the greedy path misses, because the skipped
  // characters are letters and whitespace, never a backtick.

  /** Where the optional "python" after the fence at `i` ends. */
  function TagEnd(s: string, i: int): int {
    if OccursAt(s, "python", i + 3) then i + 9 else i + 3
  }

  /** The opening at `i` of `extract_code_block`'s pattern, its body starting at `b`, the
      end of the whitespace run after the tag. */
  predicate CodeBlockOpening(s: string, i: int, b: int) {
    && OccursAt(s, Fence, i)
    && TagEnd(s, i) <= b <= |s|
    && AllSpace(s[TagEnd(s, i)..b])
    && (b == |s| || !IsSpace(s[b]))
  }

  /** The pattern matches at `i` with group `s[b..j]`: the lazy group stops at the first
      fence at or after `b`. */
  predicate CodeBlockMatch(s: string, i: int, b: int, j: int) {
    CodeBlockOpening(s, i, b) && b <= j && OccursAt(s, Fence, j) && AbsentIn(s, Fence, b, j)
  }

  /** No match starts at a position in [lo, hi). */
  ghost predicate NoCodeBlockMatchIn(s: string, lo: int, hi: int) {
    forall i, b, j :: lo <= i < hi ==> !CodeBlockMatch(s, i, b, j)
  }

  ghost predicate HasCodeBlockMatch(s: string) {
    exists i, b, j :: CodeBlockMatch(s, i, b, j)
  }

  /** The match `re.search` returns: no match starts further left. */
  ghost predicate FirstCodeBlockMatch(s: string, i: int, b: int, j: int) {
    CodeBlockMatch(s, i, b, j) && NoCodeBlockMatchIn(s, 0, i)
  }

  /** Two fences that do not overlap. */
  ghost predicate HasTwoFences(s: string) {
    exists p, q :: 0 <= p && p + 3 <= q && OccursAt(s, Fence, p) && OccursAt(s, Fence, q)
  }

  /** The whitespace run is maximal, so an opening fixes where its body starts. */
  lemma CodeBlockOpeningUnique(s: string, i: int, b: int, b': int)
    requires CodeBlockOpening(s, i, b) && CodeBlockOpening(s, i, b')
    ensures b == b'
  {
    SpaceRun(s, TagEnd(s, i), b);
    SpaceRun(s, TagEnd(s, i), b');
  }

  /** Every character of a whitespace slice is whitespace. */
  lemma SpaceRun(s: string, t: int, b: int)
    requires 0 <= t <= b <= |s| && AllSpace(s[t..b])
    ensures forall k :: t <= k < b ==> IsSpace(s[k])
  {
    forall k | t <= k < b
      ensures IsSpace(s[k])
    {
      assert s[t..b][k - t] == s[k];
    }
  }

  lemma CodeBlockMatchUnique(s: string, i: int, b: int, j: int, b': int, j': int)
    requires CodeBlockMatch(s, i, b, j) && CodeBlockMatch(s, i, b', j')
    ensures b == b' && j == j'
  {
    CodeBlockOpeningUnique(s, i, b, b');
  }

  /** Where the body starts if a fence sits at `i`. */
  function CodeBlockBodyStart(s: string, i: nat): (r: Option<nat>)
    ensures r.Some? ==> CodeBlockOpening(s, i, r.value)
    ensures r.None? ==> !OccursAt(s, Fence, i)
  {
    if !OccursAt(s, Fence, i) then None
    else
      var t := TagEnd(s, i);
      var n := LeadingSpace(s[t..]);
      assert s[t..t + n] == s[t..][..n];
      Some(t + n)
  }

  /** The leftmost match starting at or after `i`. */
  function ScanCodeBlock(s: string, i: nat): (r: Option<Block>)
    decreases |s| - i
    ensures r.Some? ==> && i <= r.value.start
                        && CodeBlockMatch(s, r.value.start, r.value.body, r.value.close)
                        && NoCodeBlockMatchIn(s, i, r.value.start)
    ensures r.None? ==> NoCodeBlockMatchIn(s, i, |s| + 1)
  {
    if i + |Fence| > |s| then None
    else
      var rest := ScanCodeBlock(s, i + 1);
      match CodeBlockBodyStart(s, i)
      case None =>
        NoCodeBlockMatchPast(s, i, rest);
        rest
      case Some(b) =>
        match FindFrom(s, Fence, b)
        case Some(j) => Some(Block(i, b, j))
        case None =>
          assert forall b', j' :: !CodeBlockMatch(s, i, b', j') by {
            forall b', j' | CodeBlockMatch(s, i, b', j') ensures false {
              CodeBlockOpeningUnique(s, i, b, b');
            }
          }
          NoCodeBlockMatchPast(s, i, rest);
          rest
  }

  /** With no match at `i`, the leftmost match from `i + 1` on is the leftmost from `i`. */
  lemma NoCodeBlockMatchPast(s: string, i: nat, rest: Option<Block>)
    requires forall b, j :: !CodeBlockMatch(s, i, b, j)
    requires rest.Some? ==> i + 1 <= rest.value.start && NoCodeBlockMatchIn(s, i + 1, rest.value.start)
    requires rest.None? ==> NoCodeBlockMatchIn(s, i + 1, |s| + 1)
    ensures rest.Some? ==> NoCodeBlockMatchIn(s, i, rest.value.start)
    ensures rest.None? ==> NoCodeBlockMatchIn(s, i, |s| + 1)
  {
    var hi := if rest.Some? then rest.value.start else |s| + 1;
    forall k, b, j | i <= k < hi
      ensures !CodeBlockMatch(s, k, b, j)
    {
      if k > i {
        assert i + 1 <= k < hi;
      }
    }
  }

  /** `extract_code_block`. With a match, the stripped group of the leftmost one, which
      holds no fence; without one, the whole reply stripped. */
  function ExtractCodeBlock(text: string): (code: string)
    ensures IsStripped(code)
    ensures !HasCodeBlockMatch(text) ==> code == Strip(text)
    ensures forall i, b, j :: FirstCodeBlockMatch(text, i, b, j) ==> code == Strip(text[b..j])
    ensures HasCodeBlockMatch(text) ==> !Contains(code, Fence)
  {
    match ScanCodeBlock(text, 0)
    case None => Strip(text)
    case Some(m) =>
      assert forall i, b, j :: FirstCodeBlockMatch(text, i, b, j) ==> b == m.body && j == m.close by {
        forall i, b, j | FirstCodeBlockMatch(text, i, b, j) ensures b == m.body && j == m.close {
          assert i == m.start;
          CodeBlockMatchUnique(text, i, b, j, m.body, m.close);
        }
      }
      StrippedSliceHasNoFence(text, m.body, m.close);
      Strip(text[m.body..m.close])
  }

  /** The pattern matches somewhere exactly when the text holds two fences that do not
      overlap: the first fence opens a block whenever any later fence can close it. */
  lemma {:induction false} CodeBlockMatchIffTwoFences(s: string)
    ensures HasCodeBlockMatch(s) <==> HasTwoFences(s)
  {
    if HasCodeBlockMatch(s) {
      var i, b, j :| CodeBlockMatch(s, i, b, j);
      assert OccursAt(s, Fence, i) && OccursAt(s, Fence, j) && i + 3 <= j;
    }
    if HasTwoFences(s) {
      var p, q :| 0 <= p && p + 3 <= q && OccursAt(s, Fence, p) && OccursAt(s, Fence, q);
      var b, j := TwoFencesMatch(s, p, q);
    }
  }

  /** A fence followed by a later fence opens a block that some fence closes. */
  lemma TwoFencesMatch(s: string, p: int, q: int) returns (b: int, j: int)
    requires 0 <= p && p + 3 <= q && OccursAt(s, Fence, p) && OccursAt(s, Fence, q)
    ensures CodeBlockMatch(s, p, b, j)
  {
    b := CodeBlockBodyStart(s, p).value;
    var t := TagEnd(s, p);
    assert s[q] == '`' by {
      assert s[q..q + 3][0] == s[q];
    }
    SpaceRun(s, t, b);
    if OccursAt(s, "python", p + 3) {
      forall k | p + 3 <= k < p + 9
        ensures s[k] != '`'
      {
        assert s[p + 3..p + 9][k - p - 3] == s[k];
      }
    }
    assert b <= q;
    j := FindFrom(s, Fence, b).value;
  }

  /** With fewer than two non-overlapping fences the whole reply comes back stripped. */
  lemma ExtractCodeBlockFallback(text: string)
    requires !HasTwoFences(text)
    ensures ExtractCodeBlock(text) == Strip(text)
  {
    CodeBlockMatchIffTwoFences(text);
  }

  /** A match inside a slice of a string is a match in the string. */
  lemma CodeBlockMatchInSlice(s: string, a: nat, c: nat, i: int, b: int, j: int)
    requires a <= c <= |s|
    requires CodeBlockMatch(s[a..c], i, b, j)
    ensures HasTwoFences(s)
  {
    OccursInSlice(s, Fence, a, c, i);
    OccursInSlice(s, Fence, a, c, j);
  }

  /** `extract_code_block` is idempotent: extracting from its own output changes nothing. */
  lemma ExtractCodeBlockIdempotent(text: string)
    ensures ExtractCodeBlock(ExtractCodeBlock(text)) == ExtractCodeBlock(text)
  {
    var code := ExtractCodeBlock(text);
    CodeBlockMatchIffTwoFences(text);
    CodeBlockMatchIffTwoFences(code);
    if HasCodeBlockMatch(text) {
      assert !HasCodeBlockMatch(code);
    } else if HasCodeBlockMatch(code) {
      var i, b, j :| CodeBlockMatch(code, i, b, j);
      var n := LeadingSpace(text);
      CodeBlockMatchInSlice(text, n, n + |code|, i, b, j);
    }
    StripIdempotent(code);
  }

  /** The text inside a block with the optional tag taken off. */
  function WithoutPythonTag(inner: string): string {
    if "python" <= inner then inner[6..] else inner
  }

  /** A block with no fence starting before it or inside it (single backticks, as in inline
      code, are allowed) yields its inside, less a leading "python", stripped, whatever
      follows. */
  lemma ExtractCodeBlockOfFirstBlock(pre: string, inner: string, post: string)
    requires !Contains(pre + "``", Fence) && !Contains(inner + "``", Fence)
    ensures ExtractCodeBlock(pre + Fence + inner + Fence + post) == Strip(WithoutPythonTag(inner))
  {
    FirstBlockMatch(pre, inner, post, pre + Fence + inner + Fence + post);
  }

  /** The whitespace after the tag is outside the group, and stripping removes it anyway:
      the result is the stripped text between the tag and the closing fence. */
  lemma ExtractCodeBlockOfMatch(text: string, i: int, b: int, j: int)
    requires FirstCodeBlockMatch(text, i, b, j)
    ensures ExtractCodeBlock(text) == Strip(text[TagEnd(text, i)..j])
  {
    StripSkippingSpace(text, TagEnd(text, i), b, j);
  }

  /** In such a text the leftmost match is that block, so the result is read between the
      tag and the closing fence. */
  lemma FirstBlockMatch(pre: string, inner: string, post: string, text: string)
    requires !Contains(pre + "``", Fence) && !Contains(inner + "``", Fence)
    requires text == pre + Fence + inner + Fence + post
    ensures TagEnd(text, |pre|) <= |pre| + 3 + |inner|
    ensures text[TagEnd(text, |pre|)..|pre| + 3 + |inner|] == WithoutPythonTag(inner)
    ensures ExtractCodeBlock(text) == Strip(text[TagEnd(text, |pre|)..|pre| + 3 + |inner|])
  {
    var i := |pre|;
    var j := i + 3 + |inner|;
    BlockLayout(pre, inner, post);
    var t := TagEnd(text, i);
    TagOfBlock(text, i, j, inner);
    var b := CodeBlockBodyStart(text, i).value;
    assert b <= j by {
      assert text[j] == '`' by {
        assert text[j..j + 3][0] == text[j];
      }
      SpaceRun(text, t, b);
    }
    assert FirstCodeBlockMatch(text, i, b, j);
    ExtractCodeBlockOfMatch(text, i, b, j);
  }

  /** Where the fences and the inside of a block sit in its text. */
  lemma BlockLayout(pre: string, inner: string, post: string)
    requires !Contains(pre + "``", Fence) && !Contains(inner + "``", Fence)
    ensures var text := pre + Fence + inner + Fence + post;
      && OccursAt(text, Fence, |pre|)
      && OccursAt(text, Fence, |pre| + 3 + |inner|)
      && text[|pre| + 3..|pre| + 3 + |inner|] == inner
      && AbsentIn(text, Fence, 0, |pre|)
      && AbsentIn(text, Fence, |pre| + 3, |pre| + 3 + |inner|)
  {
    var text := pre + Fence + inner + Fence + post;
    var i, j := |pre|, |pre| + 3 + |inner|;
    assert text[0..i] == pre;
    assert text[i..i + 3] == Fence;
    assert text[i + 3..j] == inner;
    assert text[j..j + 3] == Fence;
    NoFenceStartsIn(text, 0, pre);
    NoFenceStartsIn(text, i + 3, inner);
  }

  /** The tag is read from the inside of the block: the closing fence cannot be part of it. */
  lemma TagOfBlock(text: string, i: int, j: int, inner: string)
    requires 0 <= i && i + 3 <= j && OccursAt(text, Fence, j)
    requires text[i + 3..j] == inner
    ensures TagEnd(text, i) <= j
    ensures text[TagEnd(text, i)..j] == WithoutPythonTag(inner)
  {
    assert text[j] == '`' by {
      assert text[j..j + 3][0] == text[j];
    }
    if i + 9 <= j {
      assert text[i + 3..i + 9] == inner[..6];
    } else if i + 9 <= |text| {
      assert text[i + 3..i + 9][j - i - 3] == text[j];
    }
  }

  lemma SampleReplyLayout()
    ensures SampleReply == "Here:\n" + Fence + "python\nx=1\n" + Fence + "\nDone"
  {
    assert Fence == "```";
  }

  lemma SampleReplyGroup()
    ensures Strip(WithoutPythonTag("python\nx=1\n")) == "x=1"
  {
    assert WithoutPythonTag("python\nx=1\n") == "\nx=1\n" by {
      assert "python\nx=1\n"[..6] == "python";
    }
    assert "\nx=1\n" == "\n" + "x=1" + "\n";
    StripOfConcat("\n", "x=1", "\n");
  }

  /** "Here:\n```python\nx=1\n```\nDone" yields "x=1". */
  lemma ExtractCodeBlockExample()
    ensures ExtractCodeBlock(SampleReply) == "x=1"
  {
    SampleReplyLayout();
    SampleReplyGroup();
    NoBacktickNoFence("Here:\n");
    NoBacktickNoFence("python\nx=1\n");
    ExtractCodeBlockOfFirstBlock("Here:\n", "python\nx=1\n", "\nDone");
  }

  lemma JsReplyLayout()
    ensures JsReply == "" + Fence + "js\ncode" + Fence + ""
  {
    assert Fence == "```";
  }

  lemma JsReplyStripped()
    ensures Strip("js\ncode") == "js\ncode"
  {
    var s := "js\ncode";
    assert s[0] == 'j' && s[|s| - 1] == 'e';
    assert s == "" + s + "";
    StripOfConcat("", s, "");
  }

  /** Any other language tag stays in the code: "```js\ncode```" yields "js\ncode". */
  lemma ExtractCodeBlockOtherTag()
    ensures ExtractCodeBlock(JsReply) == "js\ncode"
  {
    JsReplyLayout();
    assert "js\ncode"[0] == 'j';
    JsReplyStripped();
    NoBacktickNoFence("");
    NoBacktickNoFence("js\ncode");
    ExtractCodeBlockOfFirstBlock("", "js\ncode", "");
  }

  // ===========================================================================
  // get_scene_summary: one line per scene object.

  /** The line of one object: its name, its type and its location rounded to two decimals. */
  function ObjectLine(obj: SceneObject): (line: string)
    ensures "Name: " <= line
    ensures OccursAt(line, obj.name, 6)
    ensures OccursAt(line, ", Type: ", |obj.name| + 6)
    ensures OccursAt(line, obj.objType, |obj.name| + 14)
    ensures OccursAt(line, ", Location: " + obj.location, |obj.name| + |obj.objType| + 14)
    ensures |line| == |obj.name| + |obj.objType| + |obj.location| + 26
  {
    var place := ", Location: " + obj.location;
    OccursInFive("Name: ", obj.name, ", Type: ", obj.objType, place);
    "Name: " + obj.name + ", Type: " + obj.objType + place
  }

  function ObjectLines(objects: seq<SceneObject>): (lines: seq<string>)
    ensures |lines| == |objects|
    ensures forall k :: 0 <= k < |objects| ==> lines[k] == ObjectLine(objects[k])
  {
    seq(|objects|, k requires 0 <= k < |objects| => ObjectLine(objects[k]))
  }

  /** `get_scene_summary`: the object lines joined by newlines; empty for an empty scene. */
  function SceneSummary(objects: seq<SceneObject>): (summary: string)
    ensures objects == [] <==> summary == ""
    ensures objects != [] ==> "Name: " <= summary
  {
    Join(ObjectLines(objects), "\n")
  }

  /** A scene of one object is summarised by that object's line alone, whatever its fields. */
  lemma SceneSummarySingle(obj: SceneObject)
    ensures SceneSummary([obj]) == ObjectLine(obj)
  {
    assert ObjectLines([obj]) == [ObjectLine(obj)];
  }

  /** The summaries of two non-empty scenes, one after the other, are joined by one newline,
      whatever their fields hold: the summary keeps scene order and adds nothing else. */
  lemma SceneSummaryAppend(a: seq<SceneObject>, b: seq<SceneObject>)
    requires a != [] && b != []
    ensures SceneSummary(a + b) == SceneSummary(a) + "\n" + SceneSummary(b)
  {
    assert ObjectLines(a + b) == ObjectLines(a) + ObjectLines(b);
    JoinAppend(ObjectLines(a), ObjectLines(b), "\n");
  }

  /** None of the printed fields of an object runs over a line. */
  predicate SingleLine(obj: SceneObject) {
    '\n' !in obj.name && '\n' !in obj.objType && '\n' !in obj.location
  }

  lemma ObjectLineSingle(obj: SceneObject)
    requires SingleLine(obj)
    ensures '\n' !in ObjectLine(obj)
  {
  }

  /** When no field runs over a line, splitting the summary at newlines gives back exactly
      one line per object, in scene order. */
  lemma SceneSummaryLines(objects: seq<SceneObject>)
    requires objects != []
    requires forall k :: 0 <= k < |objects| ==> SingleLine(objects[k])
    ensures Split(SceneSummary(objects), '\n') == ObjectLines(objects)
  {
    var lines := ObjectLines(objects);
    forall k | 0 <= k < |lines|
      ensures '\n' !in lines[k]
    {
      ObjectLineSingle(objects[k]);
    }
    SplitJoin(lines, '\n');
  }

  // ===========================================================================
  // The user message of the direct request.

  const SceneHeader: string := "Scene Overview:\n"
  const TaskMarker: string := "\n\nTask: "

  /** The f-string "Scene Overview:\n{scene_info}\n\nTask: {prompt}". */
  function UserMessage(summary: string, prompt: string): (m: string)
    ensures |m| == |SceneHeader| + |summary| + |TaskMarker| + |prompt|
    ensures SceneHeader <= m
    ensures OccursAt(m, summary, |SceneHeader|)
    ensures OccursAt(m, TaskMarker, |SceneHeader| + |summary|)
    ensures OccursAt(m, prompt, |m| - |prompt|)
  {
    var m := SceneHeader + summary + TaskMarker + prompt;
    var h, e := |SceneHeader|, |SceneHeader| + |summary|;
    assert m[..h] == SceneHeader && m[h..e] == summary;
    assert m[e..e + |TaskMarker|] == TaskMarker && m[e + |TaskMarker|..] == prompt;
    m
  }

  /** Reads a user message back: the summary runs from the header to the first task marker,
      the prompt is everything after it. */
  function ParseUserMessage(m: string): Option<(string, string)> {
    if !(SceneHeader <= m) then None
    else
      match FindFrom(m, TaskMarker, |SceneHeader|)
      case None => None
      case Some(q) => Some((m[|SceneHeader|..q], m[q + |TaskMarker|..]))
  }

  /** The marker cannot start inside the last characters before a marker: its only
      double newline is at its start. */
  lemma MarkerNotStraddling(m: string, e: int)
    requires OccursAt(m, TaskMarker, e)
    ensures AbsentIn(m, TaskMarker, e - |TaskMarker| + 1, e)
  {
    assert TaskMarker == "\n\nTask: ";
    assert m[e] == m[e..e + 8][0] && m[e + 1] == m[e..e + 8][1];
    forall p | e - 7 <= p < e
      ensures !OccursAt(m, TaskMarker, p)
    {
      if 0 <= p && p + 8 <= |m| {
        assert m[p..p + 8][e - p] == m[e];
        if p == e - 1 {
          assert m[p..p + 8][2] == m[e + 1];
        }
      }
    }
  }

  /** A summary that does not hold `TaskMarker` is read back whole, and the prompt after it,
      whatever the prompt holds. */
  lemma UserMessageRoundTrip(summary: string, prompt: string)
    requires !Contains(summary, TaskMarker)
    ensures ParseUserMessage(UserMessage(summary, prompt)) == Some((summary, prompt))
  {
    var m := UserMessage(summary, prompt);
    var h, e := |SceneHeader|, |SceneHeader| + |summary|;
    assert m == SceneHeader + summary + TaskMarker + prompt;
    assert m[..h] == SceneHeader;
    assert m[h..e] == summary;
    assert m[e..e + |TaskMarker|] == TaskMarker;
    assert m[e + |TaskMarker|..] == prompt;
    MarkerNotStraddling(m, e);
    forall p | h <= p <= e - |TaskMarker|
      ensures !OccursAt(m, TaskMarker, p)
    {
      SliceOccurrence(m, TaskMarker, h, e, p - h);
    }
    FindFromFirst(m, TaskMarker, h, e);
  }

  /** Whatever reads back was built by `UserMessage` from a summary without the marker. */
  lemma ParseUserMessageInverse(m: string, summary: string, prompt: string)
    requires ParseUserMessage(m) == Some((summary, prompt))
    ensures UserMessage(summary, prompt) == m
    ensures !Contains(summary, TaskMarker)
  {
    var h := |SceneHeader|;
    var q := FindFrom(m, TaskMarker, h).value;
    assert m[..h] == SceneHeader && m[h..q] == summary;
    assert m[q..q + |TaskMarker|] == TaskMarker && m[q + |TaskMarker|..] == prompt;
    CutInFour(m, h, q, q + |TaskMarker|);
    forall r | 0 <= r <= |summary|
      ensures !OccursAt(summary, TaskMarker, r)
    {
      if r + |TaskMarker| <= |summary| {
        SliceOccurrence(m, TaskMarker, h, q, r);
      }
    }
  }

  /** With single-line fields the scene summary never holds the marker, so the direct
      request always reads back as the scene and the prompt. */
  lemma SceneSummaryHasNoMarker(objects: seq<SceneObject>)
    requires forall k :: 0 <= k < |objects| ==> SingleLine(objects[k])
    ensures !Contains(SceneSummary(objects), TaskMarker)
  {
    var lines := ObjectLines(objects);
    forall k | 0 <= k < |lines|
      ensures lines[k] != [] && '\n' !in lines[k]
    {
      ObjectLineSingle(objects[k]);
    }
    JoinNoDoubleSeparator(lines, '\n');
    var summary := SceneSummary(objects);
    assert TaskMarker[0] == '\n' && TaskMarker[1] == '\n' by {
      assert TaskMarker == "\n\nTask: ";
    }
    forall p | 0 <= p <= |summary|
      ensures !OccursAt(summary, TaskMarker, p)
    {
      if p + |TaskMarker| <= |summary| {
        assert summary[p..p + |TaskMarker|][0] == summary[p];
        assert summary[p..p + |TaskMarker|][1] == summary[p + 1];
      }
    }
  }

  // ===========================================================================
  // The two remote calls.

  const DirectModel: string := "deepseek/deepseek-r1-0528:free"
  const DirectSystem: string := "You are a helpful assistant that writes Python code for Blender. Modify or add to the scene without deleting existing objects."
  const StepModel: string := "mistralai/mistral-small-3.1-24b-instruct:free"
  /** The step-by-step system message, sentence by sentence. */
  const StepSystem: string := StepSystem1 + StepSystem2 + StepSystem3 + StepSystem4 + StepSystem5 + StepSystem6 + StepSystem7
  const StepSystem1: string := "You are a technical assistant for Blender scripting. "
  const StepSystem2: string := "Break down the modeling task into clear, logical steps that directly correspond to Python operations in Blender. "
  const StepSystem3: string := "Each step should describe exactly what to do using Blender terminology (e.g., \"Add a cube\", \"Scale it on the X axis by 2\", \"Apply a subdivision modifier\"). "
  const StepSystem4: string := "Do not include any UI instructions or user-facing language. "
  const StepSystem5: string := "Do not mention Blender itself. "
  const StepSystem6: string := "Just list the modeling steps in sequence for an AI model to turn into code. "
  const StepSystem7: string := "Give me a clean output without any formatting"

  /** What both calls return when the call raises. */
  const ErrorPrefix: string := "# Error occurred: "

  /** The request of `invoke_ai_logic`: the scene summary and the prompt in one user message. */
  function DirectRequest(objects: seq<SceneObject>, prompt: string): (r: Request)
    ensures r.model == DirectModel && r.system == Some(DirectSystem)
    ensures r.user == UserMessage(SceneSummary(objects), prompt)
    ensures (forall k :: 0 <= k < |objects| ==> SingleLine(objects[k])) ==>
      ParseUserMessage(r.user) == Some((SceneSummary(objects), prompt))
  {
    var user := UserMessage(SceneSummary(objects), prompt);
    assert (forall k :: 0 <= k < |objects| ==> SingleLine(objects[k])) ==>
      ParseUserMessage(user) == Some((SceneSummary(objects), prompt)) by {
      if forall k :: 0 <= k < |objects| ==> SingleLine(objects[k]) {
        SceneSummaryHasNoMarker(objects);
        UserMessageRoundTrip(SceneSummary(objects), prompt);
      }
    }
    Request(DirectModel, Some(DirectSystem), user)
  }

  /** The request of `get_step_by_step_thoughts`: the prompt alone, without the scene. */
  function StepRequest(prompt: string): (r: Request)
    ensures r.model == StepModel && r.system == Some(StepSystem)
    ensures r.user == prompt
  {
    Request(StepModel, Some(StepSystem), prompt)
  }

  /** The direct request carries the scene summary and the prompt, recoverable from it. */
  lemma DirectRequestCarriesSceneAndPrompt(objects: seq<SceneObject>, prompt: string)
    requires forall k :: 0 <= k < |objects| ==> SingleLine(objects[k])
    ensures ParseUserMessage(DirectRequest(objects, prompt).user) == Some((SceneSummary(objects), prompt))
  {
    SceneSummaryHasNoMarker(objects);
    UserMessageRoundTrip(SceneSummary(objects), prompt);
  }

  /** `get_step_by_step_thoughts`: the reply with only surrounding whitespace cut off (and
      all of it, as the result is stripped), or the error comment. */
  function StepByStepThoughts(prompt: string, complete: Request -> Result<string, string>): (r: string)
    ensures complete(StepRequest(prompt)).Ok? ==> IsStripped(r)
    ensures complete(StepRequest(prompt)).Ok? ==>
      var reply := complete(StepRequest(prompt)).value;
      exists a, e :: 0 <= a <= e <= |reply| && AllSpace(reply[..a]) && AllSpace(reply[e..]) && r == reply[a..e]
    ensures complete(StepRequest(prompt)).Err? ==> r == ErrorPrefix + complete(StepRequest(prompt)).error
  {
    match complete(StepRequest(prompt))
    case Ok(reply) =>
      var r := Strip(reply);
      var a := LeadingSpace(reply);
      assert AllSpace(reply[..a]) && AllSpace(reply[a + |r|..]) && r == reply[a..a + |r|];
      r
    case Err(e) => ErrorPrefix + e
  }

  /** The contract above pins the plan down: it is exactly `reply.strip()`. */
  lemma StepByStepThoughtsIsStrippedReply(prompt: string, complete: Request -> Result<string, string>)
    requires complete(StepRequest(prompt)).Ok?
    ensures StepByStepThoughts(prompt, complete) == Strip(complete(StepRequest(prompt)).value)
  {
    var reply := complete(StepRequest(prompt)).value;
    var r := StepByStepThoughts(prompt, complete);
    var a, e :| 0 <= a <= e <= |reply| && AllSpace(reply[..a]) && AllSpace(reply[e..]) && r == reply[a..e];
    StripCharacterised(reply, a, e);
  }

  /** `invoke_ai_logic`: the code extracted from the reply, or the error comment. */
  function InvokeAiLogic(objects: seq<SceneObject>, prompt: string, complete: Request -> Result<string, string>): (code: string)
    ensures complete(DirectRequest(objects, prompt)).Ok? ==>
      code == ExtractCodeBlock(complete(DirectRequest(objects, prompt)).value)
    ensures complete(DirectRequest(objects, prompt)).Err? ==>
      code == ErrorPrefix + complete(DirectRequest(objects, prompt)).error
  {
    match complete(DirectRequest(objects, prompt))
    case Ok(reply) => ExtractCodeBlock(reply)
    case Err(e) => ErrorPrefix + e
  }

  // ===========================================================================
  // AIBL_OT_generate.execute: the mode dispatch.

  datatype Mode = Direct | StepByStep

  /** The scene properties the operator reads and writes: `ai_prompt`, `ai_mode`,
      `ai_reasoning`, and the objects the summary lists. */
  datatype AssistantScene = AssistantScene(prompt: string, mode: Mode, reasoning: string, objects: seq<SceneObject>)

  /** The result of the operator; `executed` is the script handed to `exec`, if any. */
  datatype GenerateOutcome = GenerateOutcome(status: Status, report: Report, scene: AssistantScene, executed: Option<string>)

  const ReasoningGenerated: string := "Step-by-step reasoning generated."
  const ScriptExecuted: string := "Script executed successfully."
  const ExecutionFailed: string := "Execution failed: "

  /** `AIBL_OT_generate.execute`. In step-by-step mode the plan is stored and nothing is
      executed; otherwise the generated code is executed and the outcome reported. Either
      way the operator finishes. */
  function Generate(scene: AssistantScene, complete: Request -> Result<string, string>, exec: string -> ExecResult): (out: GenerateOutcome)
    ensures out.status == Finished
    ensures out.executed.Some? <==> scene.mode == Direct
    ensures scene.mode == StepByStep ==>
      && out.scene == scene.(reasoning := StepByStepThoughts(scene.prompt, complete))
      && out.report == Report(Info, ReasoningGenerated)
    ensures scene.mode == Direct ==>
      && out.scene == scene
      && out.executed == Some(InvokeAiLogic(scene.objects, scene.prompt, complete))
      && (out.report.level == Info <==> exec(out.executed.value).Executed?)
      && (exec(out.executed.value).Executed? ==> out.report.message == ScriptExecuted)
      && (exec(out.executed.value).Raised? ==>
            out.report.message == ExecutionFailed + exec(out.executed.value).message)
  {
    match scene.mode
    case StepByStep =>
      var thoughts := StepByStepThoughts(scene.prompt, complete);
      GenerateOutcome(Finished, Report(Info, ReasoningGenerated), scene.(reasoning := thoughts), None)
    case Direct =>
      var code := InvokeAiLogic(scene.objects, scene.prompt, complete);
      match exec(code)
      case Executed => GenerateOutcome(Finished, Report(Info, ScriptExecuted), scene, Some(code))
      case Raised(e) => GenerateOutcome(Finished, Report(Error, ExecutionFailed + e), scene, Some(code))
  }

  /** Step-by-step mode never executes code: its outcome is the same whatever `exec` does,
      and it does not depend on the scene's objects either. */
  lemma StepByStepNeverExecutes(
    scene: AssistantScene, objects: seq<SceneObject>, complete: Request -> Result<string, string>,
    exec1: string -> ExecResult, exec2: string -> ExecResult)
    requires scene.mode == StepByStep
    ensures Generate(scene, complete, exec1) == Generate(scene, complete, exec2)
    ensures Generate(scene.(objects := objects), complete, exec1).scene.reasoning
         == Generate(scene, complete, exec1).scene.reasoning
    ensures Generate(scene, complete, exec1).executed == None
  {
  }

  /** When the call raises in direct mode, the error comment is what gets executed. */
  lemma DirectFailureExecutesErrorComment(scene: AssistantScene, complete: Request -> Result<string, string>, exec: string -> ExecResult)
    requires scene.mode == Direct
    requires complete(DirectRequest(scene.objects, scene.prompt)).Err?
    ensures Generate(scene, complete, exec).executed
         == Some(ErrorPrefix + complete(DirectRequest(scene.objects, scene.prompt)).error)
    ensures exec(ErrorPrefix + complete(DirectRequest(scene.objects, scene.prompt)).error).Executed? ==>
      Generate(scene, complete, exec).report == Report(Info, ScriptExecuted)
  {
  }
}

=== FILE: host.dfy ===
/** The parts of the host application's object model that the two plugins read or write,
    as immutable values. Only the fields the plugins look at are kept; display values the
    host renders with Python's `repr` (vectors, tuples, rounded numbers) are carried as
    pre-formatted text. */
module Host {
  import opened Wrappers

  /** The `default_value` of a shader input socket, as `collect_shader_nodes` tells it apart. */
  datatype DefaultValue =
    | FloatValue(x: real)                          // a Python float
    | SequenceValue(items: seq<real>, text: string) // a Python list or tuple; `text` is its str()
    | OtherValue(text: string)                     // anything else (int, bool, host array), as str() shows it

  /** An input socket of a shader node. `defaultValue` is `None` when the socket has no
      `default_value` attribute. */
  datatype Socket = Socket(name: string, enabled: bool, isLinked: bool, defaultValue: Option<DefaultValue>)

  /** A shader node; `inputs` is `None` when the node has no `inputs` attribute, and
      `location` is the text the host prints for the node's 2-D position. */
  datatype Node = Node(name: string, typeTag: string, nodeLabel: string, location: string, inputs: Option<seq<Socket>>)

  /** A material and its node tree. */
  datatype Material = Material(name: string, useNodes: bool, nodes: seq<Node>)

  /** A scene object. `location` is the text of its position rounded to two decimals;
      `materials` are the slots of its data block (a slot may be empty); the active
      material is the one in slot `activeMaterialIndex`. */
  datatype SceneObject = SceneObject(
    name: string,
    objType: string,
    location: string,
    materials: seq<Option<Material>>,
    activeMaterialIndex: nat)

  /** The type tag of mesh objects. */
  const MeshType: string := "MESH"

  /** `obj.active_material`: the material in the active slot, if that slot exists and is filled. */
  function ActiveMaterial(obj: SceneObject): Option<Material> {
    if obj.activeMaterialIndex < |obj.materials| then obj.materials[obj.activeMaterialIndex] else None
  }

  /** What an operator's `execute` returns to the host. */
  datatype Status = Finished | Cancelled

  /** A message shown to the user through `self.report`. */
  datatype Level = Info | Error
  datatype Report = Report(level: Level, message: string)

  /** One chat-completion call: the model identifier, the optional system message and the
      user message. A remote service is a function from requests to the reply text or the
      text of the exception it raised. */
  datatype Request = Request(model: string, system: Option<string>, user: string)

  /** The outcome of handing a script to Python's `exec`: whatever it did to the host is not
      modelled, only whether it raised and with what message. */
  datatype ExecResult = Executed | Raised(message: string)
}

=== FILE: text.dfy ===
/** String primitives the plugins rely on: Python's whitespace class, `str.strip()`,
    substring search, and `str.join` / `str.split` on a one-character separator. */
module Text {
  import opened Wrappers

  /** The characters for which Python's `str.isspace()` holds. Both `str.strip()` without
      arguments and the regular-expression class `\s` on `str` patterns use this set. */
  predicate IsSpace(c: char) {
    || ('\t' <= c <= '\r')
    || ('\U{1c}' <= c <= ' ')
    || c == '\U{85}' || c == '\U{a0}' || c == '\U{1680}'
    || ('\U{2000}' <= c <= '\U{200a}')
    || c == '\U{2028}' || c == '\U{2029}' || c == '\U{202f}' || c == '\U{205f}' || c == '\U{3000}'
  }

  predicate AllSpace(s: string) {
    forall k :: 0 <= k < |s| ==> IsSpace(s[k])
  }

  /** Neither starts nor ends with whitespace. */
  predicate IsStripped(s: string) {
    s == [] || (!IsSpace(s[0]) && !IsSpace(s[|s| - 1]))
  }

  /** Length of the whitespace run at the start of `s`. */
  function LeadingSpace(s: string): (n: nat)
    ensures n <= |s| && AllSpace(s[..n])
    ensures n < |s| ==> !IsSpace(s[n])
  {
    if s == [] || !IsSpace(s[0]) then 0
    else
      var m := LeadingSpace(s[1..]);
      assert s[..1 + m] == [s[0]] + s[1..][..m];
      1 + m
  }

  /** Length of the whitespace run at the end of `s`. */
  function TrailingSpace(s: string): (n: nat)
    ensures n <= |s| && AllSpace(s[|s| - n..])
    ensures n < |s| ==> !IsSpace(s[|s| - n - 1])
  {
    if s == [] || !IsSpace(s[|s| - 1]) then 0
    else
      var init := s[..|s| - 1];
      var m := TrailingSpace(init);
      assert s[|s| - (1 + m)..] == init[|init| - m..] + [s[|s| - 1]];
      1 + m
  }

  /** Python's `str.strip()` with no argument: the text between the leading and the
      trailing whitespace runs. */
  function Strip(s: string): (r: string)
    ensures IsStripped(r)
    ensures LeadingSpace(s) + |r| <= |s|
    ensures r == s[LeadingSpace(s)..LeadingSpace(s) + |r|]
    ensures AllSpace(s[LeadingSpace(s) + |r|..])
  {
    var a := LeadingSpace(s);
    if a == |s| then []
    else
      var t := TrailingSpace(s);
      LeadingBeforeTrailing(s);
      s[a..|s| - t]
  }

  /** When `s` is not all whitespace, its leading run ends before its trailing run starts. */
  lemma LeadingBeforeTrailing(s: string)
    requires LeadingSpace(s) < |s|
    ensures LeadingSpace(s) < |s| - TrailingSpace(s)
  {
    var t := TrailingSpace(s);
    forall k | |s| - t <= k < |s|
      ensures IsSpace(s[k])
    {
      assert s[|s| - t..][k - (|s| - t)] == s[k];
    }
  }

  /** `Strip` is determined by its two defining properties: whatever is cut off on either
      side is whitespace, and what remains neither starts nor ends with whitespace. */
  lemma StripCharacterised(s: string, a: nat, b: nat)
    requires a <= b <= |s|
    requires AllSpace(s[..a]) && AllSpace(s[b..]) && IsStripped(s[a..b])
    ensures Strip(s) == s[a..b]
  {
    var n := LeadingSpace(s);
    var r := Strip(s);
    if a == b {
      assert r == [];
    } else {
      assert s[a] == s[a..b][0] && s[b - 1] == s[a..b][b - a - 1];
      FirstNonSpace(s, a);
      var e := n + |r|;
      assert s[e - 1] == r[|r| - 1];
      LastNonSpace(s, e, b);
    }
  }

  /** Whitespace up to a non-whitespace character is exactly the leading run. */
  lemma FirstNonSpace(s: string, a: nat)
    requires a < |s| && AllSpace(s[..a]) && !IsSpace(s[a])
    ensures LeadingSpace(s) == a
  {
    var n := LeadingSpace(s);
    forall k | 0 <= k < a
      ensures IsSpace(s[k])
    {
      assert s[..a][k] == s[k];
    }
    forall k | 0 <= k < n
      ensures IsSpace(s[k])
    {
      assert s[..n][k] == s[k];
    }
  }

  /** Two positions after which there is only whitespace, each just past a non-whitespace
      character, are the same. */
  lemma LastNonSpace(s: string, e: nat, b: nat)
    requires 0 < e <= |s| && 0 < b <= |s|
    requires AllSpace(s[e..]) && AllSpace(s[b..]) && !IsSpace(s[e - 1]) && !IsSpace(s[b - 1])
    ensures e == b
  {
    forall k | b <= k < |s|
      ensures IsSpace(s[k])
    {
      assert s[b..][k - b] == s[k];
    }
    forall k | e <= k < |s|
      ensures IsSpace(s[k])
    {
      assert s[e..][k - e] == s[k];
    }
  }

  /** Stripping an already stripped string leaves it unchanged, so `Strip` is idempotent. */
  lemma StripIdempotent(s: string)
    ensures IsStripped(s) ==> Strip(s) == s
    ensures Strip(Strip(s)) == Strip(s)
  {
    if IsStripped(s) {
      assert s[..0] == [] && s[|s|..] == [] && s[0..|s|] == s;
      StripCharacterised(s, 0, |s|);
    }
    var r := Strip(s);
    assert r[..0] == [] && r[|r|..] == [] && r[0..|r|] == r;
    StripCharacterised(r, 0, |r|);
  }

  // ---------------------------------------------------------------------------
  // Substring search

  /** The three backticks that open and close a fenced code block. */
  const Fence: string := "```"

  /** A sample reply with one python block between two lines of prose. */
  const SampleReply: string := "Here:\n```python\nx=1\n```\nDone"

  /** A reply whose only block is tagged "js". */
  const JsReply: string := "```js\ncode```"

  /** A fenced block found in a text: the opening fence starts at `start`, the body is
      `text[body..close]` and the closing fence starts at `close`. */
  datatype Block = Block(start: nat, body: nat, close: nat)

  predicate OccursAt(s: string, pat: string, p: int) {
    0 <= p && p + |pat| <= |s| && s[p..p + |pat|] == pat
  }

  /** Python's `pat in s`. */
  predicate Contains(s: string, pat: string) {
    exists p :: 0 <= p <= |s| && OccursAt(s, pat, p)
  }

  /** `pat` starts at no position in [lo, hi). */
  predicate AbsentIn(s: string, pat: string, lo: int, hi: int) {
    forall p :: lo <= p < hi ==> !OccursAt(s, pat, p)
  }

  /** The first position at or after `k` where `pat` occurs. */
  function FindFrom(s: string, pat: string, k: nat): (r: Option<nat>)
    decreases |s| - k
    ensures r.Some? ==> k <= r.value && OccursAt(s, pat, r.value) && AbsentIn(s, pat, k, r.value)
    ensures r.None? ==> AbsentIn(s, pat, k, |s| + 1)
  {
    if k + |pat| > |s| then None
    else if s[k..k + |pat|] == pat then Some(k)
    else FindFrom(s, pat, k + 1)
  }

  /** Occurrences inside a slice are the occurrences in the whole string, shifted. */
  lemma SliceOccurrence(s: string, pat: string, a: nat, c: nat, p: int)
    requires a <= c <= |s| && 0 <= p && p + |pat| <= c - a
    ensures OccursAt(s[a..c], pat, p) <==> OccursAt(s, pat, a + p)
  {
    var t, n := s[a..c], |pat|;
    var inner, outer := t[p..p + n], s[a + p..a + p + n];
    forall k | 0 <= k < n
      ensures inner[k] == outer[k]
    {
      assert inner[k] == t[p + k] == s[a + p + k];
    }
    assert inner == outer;
  }

  /** The search finds the first occurrence. */
  lemma FindFromFirst(s: string, pat: string, k: nat, p: nat)
    requires k <= p && OccursAt(s, pat, p) && AbsentIn(s, pat, k, p)
    ensures FindFrom(s, pat, k) == Some(p)
  {
  }

  /** Stripping ignores whitespace already cut from the front. */
  lemma StripAfterSpace(s: string, n: nat)
    requires n <= |s| && AllSpace(s[..n])
    ensures Strip(s[n..]) == Strip(s)
  {
    var t := s[n..];
    var a, e := StripParts(t);
    var p := s[..n] + t[..a];
    AllSpaceConcat(s[..n], t[..a]);
    assert s == s[..n] + t;
    CutInThree(t, a, e);
    ConcatRegroup(s[..n], t[..a], t[a..e], t[e..]);
    StripOfConcat(p, t[a..e], t[e..]);
  }

  /** The three pieces `Strip` cuts a string into. */
  lemma StripParts(s: string) returns (a: nat, e: nat)
    ensures a <= e <= |s| && Strip(s) == s[a..e]
    ensures AllSpace(s[..a]) && IsStripped(s[a..e]) && AllSpace(s[e..])
  {
    a := LeadingSpace(s);
    e := a + |Strip(s)|;
  }

  lemma AllSpaceConcat(p: string, q: string)
    requires AllSpace(p) && AllSpace(q)
    ensures AllSpace(p + q)
  {
    forall k | 0 <= k < |p + q|
      ensures IsSpace((p + q)[k])
    {
      if k >= |p| {
        assert (p + q)[k] == q[k - |p|];
      }
    }
  }

  lemma ConcatAssociative(x: string, y: string, z: string)
    ensures x + (y + z) == (x + y) + z
  {
  }

  lemma ConcatRegroup(w: string, x: string, y: string, z: string)
    ensures w + (x + y + z) == (w + x) + y + z
  {
  }

  /** `Strip` of whitespace, a stripped middle and whitespace is that middle. */
  lemma StripOfConcat(p: string, x: string, q: string)
    requires AllSpace(p) && IsStripped(x) && AllSpace(q)
    ensures Strip(p + x + q) == x
  {
    var s := p + x + q;
    assert s[..|p|] == p;
    assert s[|p|..|p| + |x|] == x;
    assert s[|p| + |x|..] == q;
    StripCharacterised(s, |p|, |p| + |x|);
  }

  /** Inside a slice, starting past a run of whitespace makes no difference to `Strip`. */
  lemma StripSkippingSpace(s: string, t: nat, b: nat, j: nat)
    requires t <= b <= j <= |s| && AllSpace(s[t..b])
    ensures Strip(s[b..j]) == Strip(s[t..j])
  {
    var rest := s[t..j];
    assert rest[..b - t] == s[t..b];
    assert rest[b - t..] == s[b..j];
    StripAfterSpace(rest, b - t);
  }

  /** An occurrence inside a slice is an occurrence in the whole string. */
  lemma OccursInSlice(s: string, pat: string, a: nat, c: nat, p: int)
    requires a <= c <= |s|
    requires OccursAt(s[a..c], pat, p)
    ensures OccursAt(s, pat, a + p)
  {
    SliceOccurrence(s, pat, a, c, p);
  }

  /** A string placed between two others occurs where it was placed. */
  lemma OccursBetween(a: string, pat: string, c: string)
    ensures OccursAt(a + pat + c, pat, |a|)
  {
    assert (a + pat + c)[|a|..|a| + |pat|] == pat;
  }

  /** An occurrence in `b` is an occurrence in `a + b`, shifted by `|a|`. */
  lemma OccursAfter(a: string, b: string, pat: string, p: int)
    requires OccursAt(b, pat, p)
    ensures OccursAt(a + b, pat, |a| + p)
  {
    assert (a + b)[|a| + p..|a| + p + |pat|] == b[p..p + |pat|];
  }

  /** Cutting a string at three points and gluing the four pieces gives it back. */
  lemma CutInThree(s: string, a: nat, b: nat)
    requires a <= b <= |s|
    ensures s == s[..a] + s[a..b] + s[b..]
  {
    assert s[..a] + s[a..b] == s[..b];
  }

  lemma CutInFour(s: string, a: nat, b: nat, c: nat)
    requires a <= b <= c <= |s|
    ensures s == s[..a] + s[a..b] + s[b..c] + s[c..]
  {
    assert s[..a] + s[a..b] == s[..b];
    assert s[..b] + s[b..c] == s[..c];
  }

  /** A sequence is what comes before an element, the element, and what comes after it. */
  lemma SplitAround<T>(s: seq<T>, k: nat)
    requires k < |s|
    ensures s == s[..k] + [s[k]] + s[k + 1..]
  {
    assert s[..k + 1] == s[..k] + [s[k]];
  }

  /** In a concatenation of five pieces, the pieces occur where they were put. */
  lemma OccursInFive(a: string, b: string, c: string, d: string, e: string)
    ensures OccursAt(a + b + c + d + e, b, |a|)
    ensures OccursAt(a + b + c + d + e, c, |a| + |b|)
    ensures OccursAt(a + b + c + d + e, d, |a| + |b| + |c|)
    ensures a <= a + b + c + d + e
    ensures OccursAt(a + b + c + d + e, e, |a| + |b| + |c| + |d|)
    ensures |a + b + c + d + e| == |a| + |b| + |c| + |d| + |e|
    ensures OccursAt(a + b + c + d + e, e, |a + b + c + d + e| - |e|)
  {
    var s := a + b + c + d + e;
    assert s[..|a|] == a;
    assert s[|a| + |b| + |c| + |d|..] == e;
    assert s[|a|..|a| + |b|] == b;
    assert s[|a| + |b|..|a| + |b| + |c|] == c;
    assert s[|a| + |b| + |c|..|a| + |b| + |c| + |d|] == d;
  }

  /** A string without `pat` has no slice containing `pat`. */
  lemma AbsentFromSlice(s: string, pat: string, a: nat, c: nat)
    requires a <= c <= |s|
    requires !Contains(s, pat)
    ensures !Contains(s[a..c], pat)
  {
    if Contains(s[a..c], pat) {
      var p :| OccursAt(s[a..c], pat, p);
      OccursInSlice(s, pat, a, c, p);
    }
  }

  /** No fence starts inside `x` where `x` is followed by a fence, provided `x + "``"` holds
      none: a fence starting in `x` ends at the latest two characters into the next one. */
  lemma NoFenceStartsIn(s: string, a: nat, x: string)
    requires a + |x| <= |s| && s[a..a + |x|] == x && OccursAt(s, Fence, a + |x|)
    requires !Contains(x + "``", Fence)
    ensures AbsentIn(s, Fence, a, a + |x|)
  {
    var e := a + |x|;
    assert s[e..e + 2] == s[e..e + 3][..2] == "``";
    assert s[a..e + 2] == s[a..e] + s[e..e + 2];
    forall p | a <= p < e
      ensures !OccursAt(s, Fence, p)
    {
      SliceOccurrence(s, Fence, a, e + 2, p - a);
    }
  }

  /** Text without a backtick holds no fence, even with two backticks appended. */
  lemma NoBacktickNoFence(x: string)
    requires '`' !in x
    ensures !Contains(x, Fence) && !Contains(x + "``", Fence)
  {
    var w := x + "``";
    forall p | 0 <= p <= |w|
      ensures !OccursAt(w, Fence, p)
    {
      if p + 3 <= |w| {
        assert w[p..p + 3][0] == w[p] == x[p];
      }
    }
    forall p | 0 <= p <= |x|
      ensures !OccursAt(x, Fence, p)
    {
      if p + 3 <= |x| {
        assert x[p..p + 3][0] == x[p];
      }
    }
  }

  /** The text between a block's opening and its closing fence holds no fence, and neither
      does that text stripped. */
  lemma StrippedSliceHasNoFence(s: string, b: int, j: int)
    requires 0 <= b <= j <= |s|
    requires AbsentIn(s, Fence, b, j)
    ensures !Contains(Strip(s[b..j]), Fence)
  {
    var body := s[b..j];
    if Contains(body, Fence) {
      var p :| 0 <= p <= |body| && OccursAt(body, Fence, p);
      OccursInSlice(s, Fence, b, j, p);
    }
    var n := LeadingSpace(body);
    AbsentFromSlice(body, Fence, n, n + |Strip(body)|);
  }

  // ---------------------------------------------------------------------------
  // Join, and split on one separator character

  /** Python's `sep.join(parts)`. */
  function Join(parts: seq<string>, sep: string): (s: string)
    ensures |parts| == 0 ==> s == ""
    ensures |parts| > 0 ==> parts[0] <= s
  {
    if |parts| == 0 then ""
    else if |parts| == 1 then parts[0]
    else parts[0] + sep + Join(parts[1..], sep)
  }

  /** Four parts joined: each separator sits between two neighbours. */
  lemma JoinFour(a: string, b: string, c: string, d: string, sep: string)
    ensures Join([a, b, c, d], sep) == a + sep + b + sep + c + sep + d
  {
    var parts := [a, b, c, d];
    assert parts[1..] == [b, c, d];
    assert parts[1..][1..] == [c, d];
    assert parts[1..][1..][1..] == [d];
    assert Join([c, d], sep) == c + sep + d;
    assert Join([b, c, d], sep) == b + sep + (c + sep + d);
  }

  /** Joining two non-empty lists of parts puts one separator between their joins. */
  lemma {:induction false} JoinAppend(a: seq<string>, b: seq<string>, sep: string)
    requires a != [] && b != []
    ensures Join(a + b, sep) == Join(a, sep) + sep + Join(b, sep)
  {
    assert (a + b)[0] == a[0];
    if |a| == 1 {
      assert (a + b)[1..] == b;
    } else {
      assert (a + b)[1..] == a[1..] + b;
      JoinAppend(a[1..], b, sep);
      ConcatRegroup(a[0] + sep, Join(a[1..], sep), sep, Join(b, sep));
    }
  }

  /** Python's `s.split(sep)` for a one-character separator: always at least one part,
      and no part contains the separator. */
  function Split(s: string, sep: char): (parts: seq<string>)
    ensures |parts| >= 1
    ensures forall k :: 0 <= k < |parts| ==> sep !in parts[k]
  {
    if s == [] then [""]
    else
      var rest := Split(s[1..], sep);
      if s[0] == sep then [""] + rest
      else [[s[0]] + rest[0]] + rest[1..]
  }

  lemma {:induction false} SplitOfSeparatorFree(a: string, sep: char)
    requires sep !in a
    ensures Split(a, sep) == [a]
  {
    if a != [] {
      assert sep !in a[1..];
      SplitOfSeparatorFree(a[1..], sep);
      assert [a[0]] + a[1..] == a;
    }
  }

  lemma {:induction false} SplitAtFirstSeparator(a: string, sep: char, b: string)
    requires sep !in a
    ensures Split(a + [sep] + b, sep) == [a] + Split(b, sep)
  {
    var s := a + [sep] + b;
    if a == [] {
      assert s[1..] == b;
    } else {
      assert s[1..] == a[1..] + [sep] + b;
      assert sep !in a[1..];
      SplitAtFirstSeparator(a[1..], sep, b);
      assert [a[0]] + a[1..] == a;
    }
  }

  /** Splitting a join of separator-free parts gives back the parts (there is at least one
      part, since `"".split(sep)` is `[""]`, not `[]`). */
  lemma {:induction false} SplitJoin(parts: seq<string>, sep: char)
    requires |parts| >= 1
    requires forall k :: 0 <= k < |parts| ==> sep !in parts[k]
    ensures Split(Join(parts, [sep]), sep) == parts
  {
    if |parts| == 1 {
      SplitOfSeparatorFree(parts[0], sep);
    } else {
      SplitJoin(parts[1..], sep);
      SplitAtFirstSeparator(parts[0], sep, Join(parts[1..], [sep]));
      assert parts == [parts[0]] + parts[1..];
    }
  }

  /** A join of non-empty, separator-free parts never holds the separator twice in a row:
      every separator is followed by the first character of a part. */
  lemma {:induction false} JoinNoDoubleSeparator(parts: seq<string>, sep: char)
    requires forall k :: 0 <= k < |parts| ==> parts[k] != [] && sep !in parts[k]
    ensures forall p :: 0 <= p && p + 1 < |Join(parts, [sep])| ==>
      Join(parts, [sep])[p] != sep || Join(parts, [sep])[p + 1] != sep
  {
    var s := Join(parts, [sep]);
    if |parts| == 1 {
      forall p | 0 <= p < |s|
        ensures s[p] != sep
      {
        assert s[p] in parts[0];
      }
    } else if |parts| > 1 {
      var a := parts[0];
      var rest := Join(parts[1..], [sep]);
      JoinNoDoubleSeparator(parts[1..], sep);
      assert s == a + [sep] + rest;
      assert parts[1..][0] == parts[1] && rest[0] == parts[1][0] != sep;
      forall p | 0 <= p && p + 1 < |s|
        ensures s[p] != sep || s[p + 1] != sep
      {
        if p < |a| {
          assert s[p] == a[p] && a[p] in a;
        } else if p == |a| {
          assert s[p + 1] == rest[0];
        } else {
          assert s[p] == rest[p - |a| - 1] && s[p + 1] == rest[p - |a|];
        }
      }
    }
  }
}

=== FILE: texture_and_prompt.dfy ===
/** The material plugin (texture_and_prompt.py): the code extractor applied to the model's
    reply, the shader-node summary sent to the model, the fallback script used when the
    remote call fails, and the operator that assigns the generated material to the active
    object. */
module TextureAndPrompt {
  import opened Wrappers
  import opened Text
  import opened Host

  // ===========================================================================
  // extract_python_code: the first fenced block, or the whole reply, stripped.
  //
  // The regular expression is "```(?:python)?\n(.*?)```" with DOTALL, and the
  // first element of `re.findall` is its leftmost match. Stated without regular
  // expressions: a match at `i` is a fence at `i`, then either a newline or
  // "python" and a newline, then a body that ends at the first fence after it.

  /** The opening at `i` of `extract_python_code`'s pattern, its body starting at `b`. */
  predicate PythonOpening(s: string, i: int, b: int) {
    && OccursAt(s, Fence, i)
    && (|| (b == i + 4 && OccursAt(s, "\n", i + 3))
        || (b == i + 10 && OccursAt(s, "python\n", i + 3)))
  }

  /** The pattern matches at `i` with body `s[b..j]`: the lazy body stops at the first
      fence at or after `b`. */
  predicate PythonMatch(s: string, i: int, b: int, j: int) {
    PythonOpening(s, i, b) && b <= j && OccursAt(s, Fence, j) && AbsentIn(s, Fence, b, j)
  }

  /** No match starts at a position in [lo, hi). */
  ghost predicate NoPythonMatchIn(s: string, lo: int, hi: int) {
    forall i, b, j :: lo <= i < hi ==> !PythonMatch(s, i, b, j)
  }

  ghost predicate HasPythonMatch(s: string) {
    exists i, b, j :: PythonMatch(s, i, b, j)
  }

  /** The match `re.findall` lists first: no match starts further left. */
  ghost predicate FirstPythonMatch(s: string, i: int, b: int, j: int) {
    PythonMatch(s, i, b, j) && NoPythonMatchIn(s, 0, i)
  }

  /** A newline right after the fence and "python" right after it exclude each other, so
      an opening fixes where its body starts. */
  lemma PythonOpeningUnique(s: string, i: int, b: int, b': int)
    requires PythonOpening(s, i, b) && PythonOpening(s, i, b')
    ensures b == b'
  {
    assert OccursAt(s, "\n", i + 3) ==> s[i + 3] == '\n' by {
      if OccursAt(s, "\n", i + 3) {
        assert s[i + 3..i + 4][0] == s[i + 3];
      }
    }
    assert OccursAt(s, "python\n", i + 3) ==> s[i + 3] == 'p' by {
      if OccursAt(s, "python\n", i + 3) {
        assert s[i + 3..i + 10][0] == s[i + 3];
      }
    }
  }

  /** At most one match starts at any position. */
  lemma PythonMatchUnique(s: string, i: int, b: int, j: int, b': int, j': int)
    requires PythonMatch(s, i, b, j) && PythonMatch(s, i, b', j')
    ensures b == b' && j == j'
  {
    PythonOpeningUnique(s, i, b, b');
  }

  /** Where the body starts if an opening sits at `i`. */
  function PythonBodyStart(s: string, i: nat): (r: Option<nat>)
    ensures r.Some? ==> PythonOpening(s, i, r.value)
    ensures r.None? ==> forall b :: !PythonOpening(s, i, b)
  {
    if !OccursAt(s, Fence, i) then None
    else if OccursAt(s, "\n", i + 3) then Some(i + 4)
    else if OccursAt(s, "python\n", i + 3) then Some(i + 10)
    else None
  }

  /** The leftmost match starting at or after `i`, tried position by position as the
      regular-expression engine does. */
  function ScanPython(s: string, i: nat): (r: Option<Block>)
    decreases |s| - i
    ensures r.Some? ==> && i <= r.value.start
                        && PythonMatch(s, r.value.start, r.value.body, r.value.close)
                        && NoPythonMatchIn(s, i, r.value.start)
    ensures r.None? ==> NoPythonMatchIn(s, i, |s| + 1)
  {
    if i + |Fence| > |s| then None
    else
      var rest := ScanPython(s, i + 1);
      match PythonBodyStart(s, i)
      case None =>
        NoPythonMatchPast(s, i, rest);
        rest
      case Some(b) =>
        match FindFrom(s, Fence, b)
        case Some(j) => Some(Block(i, b, j))
        case None =>
          assert forall b', j' :: !PythonMatch(s, i, b', j') by {
            forall b', j' | PythonMatch(s, i, b', j') ensures false {
              PythonOpeningUnique(s, i, b, b');
            }
          }
          NoPythonMatchPast(s, i, rest);
          rest
  }

  /** With no match at `i`, the leftmost match from `i + 1` on is the leftmost from `i`. */
  lemma NoPythonMatchPast(s: string, i: nat, rest: Option<Block>)
    requires forall b, j :: !PythonMatch(s, i, b, j)
    requires rest.Some? ==> i + 1 <= rest.value.start && NoPythonMatchIn(s, i + 1, rest.value.start)
    requires rest.None? ==> NoPythonMatchIn(s, i + 1, |s| + 1)
    ensures rest.Some? ==> NoPythonMatchIn(s, i, rest.value.start)
    ensures rest.None? ==> NoPythonMatchIn(s, i, |s| + 1)
  {
    var hi := if rest.Some? then rest.value.start else |s| + 1;
    forall k, b, j | i <= k < hi
      ensures !PythonMatch(s, k, b, j)
    {
      if k > i {
        assert i + 1 <= k < hi;
      }
    }
  }

  /** `extract_python_code`. With a match, the stripped body of the leftmost one, which
      holds no fence; without one, the whole reply stripped. */
  function ExtractPythonCode(text: string): (code: string)
    ensures IsStripped(code)
    ensures !HasPythonMatch(text) ==> code == Strip(text)
    ensures forall i, b, j :: FirstPythonMatch(text, i, b, j) ==> code == Strip(text[b..j])
    ensures HasPythonMatch(text) ==> !Contains(code, Fence)
  {
    match ScanPython(text, 0)
    case None => Strip(text)
    case Some(m) =>
      assert forall i, b, j :: FirstPythonMatch(text, i, b, j) ==> b == m.body && j == m.close by {
        forall i, b, j | FirstPythonMatch(text, i, b, j) ensures b == m.body && j == m.close {
          assert i == m.start;
          PythonMatchUnique(text, i, b, j, m.body, m.close);
        }
      }
      StrippedSliceHasNoFence(text, m.body, m.close);
      Strip(text[m.body..m.close])
  }

  /** A match inside a slice of a string is a match in the string. */
  lemma PythonMatchInSlice(s: string, a: nat, c: nat, i: int, b: int, j: int)
    requires a <= c <= |s|
    requires PythonMatch(s[a..c], i, b, j)
    ensures PythonMatch(s, a + i, a + b, a + j)
  {
    var t := s[a..c];
    OccursInSlice(s, Fence, a, c, i);
    OccursInSlice(s, Fence, a, c, j);
    if b == i + 4 {
      OccursInSlice(s, "\n", a, c, i + 3);
    } else {
      OccursInSlice(s, "python\n", a, c, i + 3);
    }
    forall p | a + b <= p < a + j
      ensures !OccursAt(s, Fence, p)
    {
      SliceOccurrence(s, Fence, a, c, p - a);
    }
  }

  /** Text without a fence has no match. */
  lemma NoFenceNoPythonMatch(s: string)
    requires !Contains(s, Fence)
    ensures !HasPythonMatch(s)
  {
  }

  /** `extract_python_code` is idempotent: extracting from its own output changes nothing. */
  lemma ExtractPythonCodeIdempotent(text: string)
    ensures ExtractPythonCode(ExtractPythonCode(text)) == ExtractPythonCode(text)
  {
    var code := ExtractPythonCode(text);
    if HasPythonMatch(text) {
      NoFenceNoPythonMatch(code);
    } else if HasPythonMatch(code) {
      var i, b, j :| PythonMatch(code, i, b, j);
      var n := LeadingSpace(text);
      assert code == Strip(text) == text[n..n + |code|];
      PythonMatchInSlice(text, n, n + |code|, i, b, j);
    }
    StripIdempotent(code);
  }

  /** A block with no fence starting before it or inside its body (single backticks, as in
      inline code, are allowed) is what `extract_python_code` returns, stripped, whatever
      follows it (a second block included). */
  lemma ExtractPythonCodeOfFirstBlock(pre: string, tag: string, body: string, post: string)
    requires tag == "\n" || tag == "python\n"
    requires !Contains(pre + "``", Fence) && !Contains(body + "``", Fence)
    ensures ExtractPythonCode(pre + Fence + tag + body + Fence + post) == Strip(body)
  {
    FirstPythonBlock(pre, tag, body, post, pre + Fence + tag + body + Fence + post);
  }

  /** In such a text the leftmost match is that block, its body exactly the given one. */
  lemma FirstPythonBlock(pre: string, tag: string, body: string, post: string, text: string)
    requires tag == "\n" || tag == "python\n"
    requires !Contains(pre + "``", Fence) && !Contains(body + "``", Fence)
    requires text == pre + Fence + tag + body + Fence + post
    ensures FirstPythonMatch(text, |pre|, |pre| + 3 + |tag|, |pre| + 3 + |tag| + |body|)
    ensures text[|pre| + 3 + |tag|..|pre| + 3 + |tag| + |body|] == body
  {
    var i := |pre|;
    var b := i + 3 + |tag|;
    var j := b + |body|;
    PythonBlockLayout(pre, tag, body, post, text);
    assert PythonOpening(text, i, b);
    NoFenceStartsIn(text, b, body);
    NoFenceStartsIn(text, 0, pre);
    assert PythonMatch(text, i, b, j);
  }

  /** Where the fences, the tag and the body of a block sit in its text. */
  lemma PythonBlockLayout(pre: string, tag: string, body: string, post: string, text: string)
    requires text == pre + Fence + tag + body + Fence + post
    ensures text[0..|pre|] == pre
    ensures OccursAt(text, Fence, |pre|)
    ensures OccursAt(text, tag, |pre| + 3)
    ensures OccursAt(text, Fence, |pre| + 3 + |tag| + |body|)
    ensures text[|pre| + 3 + |tag|..|pre| + 3 + |tag| + |body|] == body
  {
    var i := |pre|;
    var b := i + 3 + |tag|;
    var j := b + |body|;
    assert text[0..i] == pre;
    assert text[i..i + 3] == Fence;
    assert text[i + 3..b] == tag;
    assert text[b..j] == body;
    assert text[j..j + 3] == Fence;
  }

  lemma SampleReplyLayout()
    ensures SampleReply == "Here:\n" + Fence + "python\n" + "x=1\n" + Fence + "\nDone"
  {
    assert Fence == "```";
  }

  lemma SampleReplyBody()
    ensures Strip("x=1\n") == "x=1"
  {
    assert "x=1\n" == "" + "x=1" + "\n";
    StripOfConcat("", "x=1", "\n");
  }

  /** The reply "Here:\n```python\nx=1\n```\nDone" yields "x=1". */
  lemma ExtractPythonCodeExample()
    ensures ExtractPythonCode(SampleReply) == "x=1"
  {
    SampleReplyLayout();
    SampleReplyBody();
    NoBacktickNoFence("Here:\n");
    NoBacktickNoFence("x=1\n");
    ExtractPythonCodeOfFirstBlock("Here:\n", "python\n", "x=1\n", "\nDone");
  }

  /** A reply with two untagged blocks. */
  const TwoBlockReply: string := "```\nA\n```\n```\nB\n```"

  lemma TwoBlockReplyLayout()
    ensures TwoBlockReply == "" + Fence + "\n" + "A\n" + Fence + "\n```\nB\n```"
  {
    assert Fence == "```";
  }

  lemma TwoBlockReplyBody()
    ensures Strip("A\n") == "A"
  {
    assert "A\n" == "" + "A" + "\n";
    StripOfConcat("", "A", "\n");
  }

  /** Of two blocks only the first is returned. */
  lemma ExtractPythonCodeTwoBlocks()
    ensures ExtractPythonCode(TwoBlockReply) == "A"
  {
    TwoBlockReplyLayout();
    TwoBlockReplyBody();
    NoBacktickNoFence("");
    NoBacktickNoFence("A\n");
    ExtractPythonCodeOfFirstBlock("", "\n", "A\n", "\n```\nB\n```");
  }

  lemma JsReplyHasNoMatch()
    ensures !HasPythonMatch(JsReply)
  {
    var text := JsReply;
    assert |text| == 13;
    forall i, b | 0 <= i <= |text|
      ensures !PythonOpening(text, i, b)
    {
      if i + 4 <= |text| {
        assert text[i..i + 3][1] == text[i + 1];
        assert text[i + 3..i + 4][0] == text[i + 3];
        if i + 10 <= |text| {
          assert text[i + 3..i + 10][0] == text[i + 3];
        }
      }
    }
  }

  lemma JsReplyStripped()
    ensures IsStripped(JsReply)
  {
    assert JsReply[0] == '`' && JsReply[|JsReply| - 1] == '`';
  }

  /** A language tag other than "python" keeps the opening from counting: "```js\ncode```"
      has no match and comes back whole. */
  lemma ExtractPythonCodeOtherTag()
    ensures ExtractPythonCode(JsReply) == JsReply
  {
    JsReplyHasNoMatch();
    JsReplyStripped();
    StripIdempotent(JsReply);
  }

  // ===========================================================================
  // collect_shader_nodes: the node summary sent along with the adjustment prompt.

  /** What the summary prints for one input's value. */
  datatype Shown =
    | ShownLinked                       // the text "Linked"
    | ShownNone                         // no default value: Python's None
    | ShownRounded(x: real)             // round(x, 3)
    | ShownRoundedTuple(xs: seq<real>)  // a tuple of round(v, 3) for v in xs
    | ShownAsIs(text: string)           // the default value unchanged

  /** The value-selection rule of one input. */
  function ShowValue(s: Socket): (v: Shown)
    ensures v == ShownLinked <==> s.isLinked
    ensures v == ShownNone <==> !s.isLinked && s.defaultValue.None?
    ensures v.ShownRounded? <==> !s.isLinked && s.defaultValue.Some? && s.defaultValue.value.FloatValue?
    ensures v.ShownRoundedTuple? <==>
      && !s.isLinked && s.defaultValue.Some? && s.defaultValue.value.SequenceValue?
      && |s.defaultValue.value.items| > 3
    ensures v.ShownRoundedTuple? ==> v.xs == s.defaultValue.value.items[..4]
    ensures v.ShownRounded? ==> v.x == s.defaultValue.value.x
    ensures v.ShownAsIs? ==> v.text == s.defaultValue.value.text
  {
    if s.isLinked then ShownLinked
    else match s.defaultValue
      case None => ShownNone
      case Some(FloatValue(x)) => ShownRounded(x)
      case Some(SequenceValue(items, text)) => if |items| > 3 then ShownRoundedTuple(items[..4]) else ShownAsIs(text)
      case Some(OtherValue(text)) => ShownAsIs(text)
  }

  /** Only inputs that have a name and are enabled are listed. */
  predicate IsListed(s: Socket) {
    s.name != "" && s.enabled
  }

  /** One listed input with the value the summary prints for it. */
  datatype InputEntry = InputEntry(socket: Socket, shown: Shown)

  /** The inputs of a node as the summary lists them, in order. */
  function ListInputs(inputs: seq<Socket>): (r: seq<InputEntry>)
    ensures |r| <= |inputs|
    ensures forall k :: 0 <= k < |r| ==>
      r[k].socket in inputs && IsListed(r[k].socket) && r[k].shown == ShowValue(r[k].socket)
    ensures forall s :: s in inputs && IsListed(s) ==> InputEntry(s, ShowValue(s)) in r
  {
    if inputs == [] then []
    else
      var head := if IsListed(inputs[0]) then [InputEntry(inputs[0], ShowValue(inputs[0]))] else [];
      head + ListInputs(inputs[1..])
  }

  /** Listing keeps the order of the inputs: it distributes over concatenation. */
  lemma {:induction false} ListInputsAppend(a: seq<Socket>, b: seq<Socket>)
    ensures ListInputs(a + b) == ListInputs(a) + ListInputs(b)
  {
    if a == [] {
      assert a + b == b;
    } else {
      assert (a + b)[0] == a[0];
      assert (a + b)[1..] == a[1..] + b;
      ListInputsAppend(a[1..], b);
    }
  }

  /** Python's text of a tuple of numbers, each rounded to three decimals. */
  function TupleText(xs: seq<real>, round3: real -> string): (t: string)
    ensures "(" <= t && t[|t| - 1] == ')'
    ensures |xs| == 4 ==>
      t == "(" + round3(xs[0]) + ", " + round3(xs[1]) + ", " + round3(xs[2]) + ", " + round3(xs[3]) + ")"
  {
    var texts := seq(|xs|, k requires 0 <= k < |xs| => round3(xs[k]));
    if |xs| == 4 then
      assert texts == [round3(xs[0]), round3(xs[1]), round3(xs[2]), round3(xs[3])];
      JoinFour(round3(xs[0]), round3(xs[1]), round3(xs[2]), round3(xs[3]), ", ");
      "(" + Join(texts, ", ") + ")"
    else
      "(" + Join(texts, ", ") + ")"
  }

  /** The text of a value; `round3` gives the text of a number rounded to three decimals. */
  function ValueText(v: Shown, round3: real -> string): (t: string)
    ensures v.ShownLinked? ==> t == "Linked"
    ensures v.ShownNone? ==> t == "None"
    ensures v.ShownRounded? ==> t == round3(v.x)
    ensures v.ShownAsIs? ==> t == v.text
    ensures v.ShownRoundedTuple? ==> "(" <= t && t[|t| - 1] == ')'
    ensures v.ShownRoundedTuple? && |v.xs| == 4 ==>
      t == "(" + round3(v.xs[0]) + ", " + round3(v.xs[1]) + ", " + round3(v.xs[2]) + ", " + round3(v.xs[3]) + ")"
  {
    match v
    case ShownLinked => "Linked"
    case ShownNone => "None"
    case ShownRounded(x) => round3(x)
    case ShownRoundedTuple(xs) => TupleText(xs, round3)
    case ShownAsIs(text) => text
  }

  /** The line of one listed input. */
  function InputText(e: InputEntry, round3: real -> string): string {
    "  Input: " + e.socket.name + " = " + ValueText(e.shown, round3) + "\n"
  }

  /** The lines of listed entries, one after the other. */
  function EntriesText(entries: seq<InputEntry>, round3: real -> string): (t: string)
    ensures t == "" <==> entries == []
  {
    if entries == [] then "" else InputText(entries[0], round3) + EntriesText(entries[1..], round3)
  }

  lemma {:induction false} EntriesTextAppend(a: seq<InputEntry>, b: seq<InputEntry>, round3: real -> string)
    ensures EntriesText(a + b, round3) == EntriesText(a, round3) + EntriesText(b, round3)
  {
    if a == [] {
      assert a + b == b;
    } else {
      assert (a + b)[0] == a[0];
      assert (a + b)[1..] == a[1..] + b;
      EntriesTextAppend(a[1..], b, round3);
      ConcatAssociative(InputText(a[0], round3), EntriesText(a[1..], round3), EntriesText(b, round3));
    }
  }

  /** The input lines of a node's sockets: empty exactly when no socket is listed. */
  function SocketsText(inputs: seq<Socket>, round3: real -> string): (t: string)
    ensures t == "" <==> forall s :: s in inputs ==> !IsListed(s)
  {
    var entries := ListInputs(inputs);
    assert entries != [] ==> entries[0].socket in inputs && IsListed(entries[0].socket);
    EntriesText(entries, round3)
  }

  /** The input lines keep the order of the sockets: they distribute over concatenation. */
  lemma SocketsTextAppend(a: seq<Socket>, b: seq<Socket>, round3: real -> string)
    ensures SocketsText(a + b, round3) == SocketsText(a, round3) + SocketsText(b, round3)
  {
    ListInputsAppend(a, b);
    EntriesTextAppend(ListInputs(a), ListInputs(b), round3);
  }

  /** One socket gives its `  Input: <name> = <value>` line when it is listed, and nothing
      otherwise. */
  lemma SocketsTextSingle(s: Socket, round3: real -> string)
    ensures IsListed(s) ==>
      SocketsText([s], round3) == "  Input: " + s.name + " = " + ValueText(ShowValue(s), round3) + "\n"
    ensures !IsListed(s) ==> SocketsText([s], round3) == ""
  {
    assert [s][1..] == [];
    if IsListed(s) {
      assert ListInputs([s]) == [InputEntry(s, ShowValue(s))];
    }
  }

  /** The first two lines of a stanza: the node's name, then its type, label and location. */
  function NodeHeader(n: Node): (h: string)
    ensures "\n--- Node: " + n.name + " ---\n" <= h
    ensures OccursAt(h, "Type: " + n.typeTag + ", Label: ", |n.name| + 16)
    ensures OccursAt(h, n.nodeLabel, |n.name| + |n.typeTag| + 31)
    ensures OccursAt(h, ", Location: " + n.location + "\n", |h| - |n.location| - 13)
    ensures |h| == |n.name| + |n.typeTag| + |n.nodeLabel| + |n.location| + 44
  {
    var title := "\n--- Node: " + n.name + " ---\n";
    var kind := "Type: " + n.typeTag + ", Label: ";
    var place := ", Location: " + n.location + "\n";
    OccursInFive(title, kind, n.nodeLabel, place, "");
    title + kind + n.nodeLabel + place
  }

  /** The stanza of one node: a header, its type, label and location, then one line per
      listed input. */
  function NodeText(n: Node, round3: real -> string): (t: string)
    ensures "\n--- Node: " <= t
    ensures NodeHeader(n) <= t
    ensures n.inputs.None? ==> t == NodeHeader(n)
    ensures n.inputs.Some? ==> t == NodeHeader(n) + SocketsText(n.inputs.value, round3)
  {
    NodeHeader(n) + if n.inputs.Some? then SocketsText(n.inputs.value, round3) else ""
  }

  function NodesText(nodes: seq<Node>, round3: real -> string): (t: string)
    ensures t == "" <==> nodes == []
    ensures t != "" ==> t[0] == '\n'
  {
    if nodes == [] then "" else NodeText(nodes[0], round3) + NodesText(nodes[1..], round3)
  }

  /** The summary is the stanzas in node order and nothing else: it distributes over
      concatenation (and one node gives exactly its stanza, below). */
  lemma {:induction false} NodesTextAppend(a: seq<Node>, b: seq<Node>, round3: real -> string)
    ensures NodesText(a + b, round3) == NodesText(a, round3) + NodesText(b, round3)
  {
    if a == [] {
      assert a + b == b;
    } else {
      var first := NodeText(a[0], round3);
      assert (a + b)[0] == a[0];
      assert (a + b)[1..] == a[1..] + b;
      assert NodesText(a + b, round3) == first + NodesText(a[1..] + b, round3);
      assert NodesText(a, round3) == first + NodesText(a[1..], round3);
      NodesTextAppend(a[1..], b, round3);
      ConcatAssociative(first, NodesText(a[1..], round3), NodesText(b, round3));
    }
  }

  lemma NodesTextSingle(n: Node, round3: real -> string)
    ensures NodesText([n], round3) == NodeText(n, round3)
  {
    assert [n][1..] == [];
  }

  /** Every node of the tree has its stanza, header and inputs, in the summary. */
  lemma NodeStanzaInSummary(nodes: seq<Node>, k: nat, round3: real -> string)
    requires k < |nodes|
    ensures Contains(NodesText(nodes, round3), NodeText(nodes[k], round3))
  {
    var before, after := nodes[..k], nodes[k + 1..];
    var stanza := NodeText(nodes[k], round3);
    SplitAround(nodes, k);
    NodesTextAppend(before + [nodes[k]], after, round3);
    NodesTextAppend(before, [nodes[k]], round3);
    NodesTextSingle(nodes[k], round3);
    assert NodesText(nodes, round3) == NodesText(before, round3) + stanza + NodesText(after, round3);
    OccursBetween(NodesText(before, round3), stanza, NodesText(after, round3));
    assert OccursAt(NodesText(nodes, round3), stanza, |NodesText(before, round3)|);
  }

  /** Returned instead of a summary when there is nothing to summarise. */
  const NoMaterialSentinel: string := "No valid material with nodes found."

  /** There is an active object whose active material uses nodes. */
  predicate HasNodeMaterial(active: Option<SceneObject>) {
    active.Some? && ActiveMaterial(active.value).Some? && ActiveMaterial(active.value).value.useNodes
  }

  /** `collect_shader_nodes`: the fixed sentinel exactly when there is no active object,
      no active material or the material does not use nodes; otherwise one stanza per node
      of the material's tree (nothing at all for an empty tree). */
  function CollectShaderNodes(active: Option<SceneObject>, round3: real -> string): (summary: string)
    ensures summary == NoMaterialSentinel <==> !HasNodeMaterial(active)
    ensures HasNodeMaterial(active) ==> summary == NodesText(ActiveMaterial(active.value).value.nodes, round3)
  {
    if !HasNodeMaterial(active) then NoMaterialSentinel
    else NodesText(ActiveMaterial(active.value).value.nodes, round3)
  }

  /** Every listed input of a node has its line in the node's stanza. */
  lemma ListedInputShown(n: Node, s: Socket, round3: real -> string)
    requires n.inputs.Some? && s in n.inputs.value && IsListed(s)
    ensures Contains(NodeText(n, round3), "  Input: " + s.name + " = " + ValueText(ShowValue(s), round3) + "\n")
  {
    var inputs := n.inputs.value;
    var i :| 0 <= i < |inputs| && inputs[i] == s;
    var before, after := inputs[..i], inputs[i + 1..];
    SplitAround(inputs, i);
    SocketsTextAppend(before + [s], after, round3);
    SocketsTextAppend(before, [s], round3);
    SocketsTextSingle(s, round3);
    var line := "  Input: " + s.name + " = " + ValueText(ShowValue(s), round3) + "\n";
    var head := NodeHeader(n) + SocketsText(before, round3);
    ConcatRegroup(NodeHeader(n), SocketsText(before, round3), line, SocketsText(after, round3));
    OccursBetween(head, line, SocketsText(after, round3));
  }

  /** A linked input that is named and enabled shows up in its node's stanza as
      "  Input: <name> = Linked", whatever its default value. */
  lemma LinkedInputShownAsLinked(n: Node, s: Socket, round3: real -> string)
    requires n.inputs.Some? && s in n.inputs.value
    requires IsListed(s) && s.isLinked
    ensures Contains(NodeText(n, round3), "  Input: " + s.name + " = Linked\n")
  {
    ListedInputShown(n, s, round3);
    assert ValueText(ShowValue(s), round3) == "Linked";
    LinkedLine(s.name);
  }

  /** The input line of a linked input, written as one literal around the name. */
  lemma LinkedLine(name: string)
    ensures "  Input: " + name + " = " + "Linked" + "\n" == "  Input: " + name + " = Linked\n"
  {
    assert " = " + "Linked" + "\n" == " = Linked\n";
    ConcatAssociative("  Input: " + name, " = ", "Linked");
    ConcatAssociative("  Input: " + name, " = " + "Linked", "\n");
  }

  /** An unlinked float input that is named and enabled shows up in its node's stanza with
      its default value rounded to three decimals. */
  lemma UnlinkedFloatShownRounded(n: Node, s: Socket, x: real, round3: real -> string)
    requires n.inputs.Some? && s in n.inputs.value
    requires IsListed(s) && !s.isLinked && s.defaultValue == Some(FloatValue(x))
    ensures Contains(NodeText(n, round3), "  Input: " + s.name + " = " + round3(x) + "\n")
  {
    ListedInputShown(n, s, round3);
    assert ValueText(ShowValue(s), round3) == round3(x);
  }

  /** An unlinked input that is named and enabled and holds more than three numbers shows
      up in its node's stanza as the tuple of its first four numbers, each rounded to three
      decimals. */
  lemma UnlinkedTupleShownRounded(n: Node, s: Socket, items: seq<real>, text: string, round3: real -> string)
    requires n.inputs.Some? && s in n.inputs.value
    requires IsListed(s) && !s.isLinked && s.defaultValue == Some(SequenceValue(items, text))
    requires |items| > 3
    ensures var tuple := "(" + round3(items[0]) + ", " + round3(items[1]) + ", " + round3(items[2]) + ", "
                         + round3(items[3]) + ")";
      Contains(NodeText(n, round3), "  Input: " + s.name + " = " + tuple + "\n")
  {
    ListedInputShown(n, s, round3);
    var xs := ShowValue(s).xs;
    assert xs == items[..4];
    assert xs[0] == items[0] && xs[1] == items[1] && xs[2] == items[2] && xs[3] == items[3];
  }

  // ===========================================================================
  // get_adjustment_script: the request, and the fallback when it fails.

  const AdjustModel: string := "deepseek/deepseek-r1-0528:free"

  /** The script used when the remote call raises. */
  const ScriptErrorFallback: string := "# Error generating script"

  /** The fixed parts of the adjustment request's user message. */
  const AdjustIntro: string := "\nYou are an expert in Blender scripting. Given this shader node info:\n\n"
  const AdjustBetween: string := "\n\nAnd this instruction:\n\n"
  const AdjustConstraints: string :=
    "\n\nGenerate Python code that uses bpy to modify the active material's nodes.\n\n"
    + "Constraints:\n"
    + "- Modify existing nodes only (e.g., change Roughness, Metallic, Base Color).\n"
    + "- Do not create new materials.\n"
    + "- Access nodes with: node_tree = obj.active_material.node_tree\n"
    + "- Output only executable Python code. No markdown, no explanation.\n"
    + "                    "

  /** The single user message of the adjustment request. */
  function AdjustPrompt(nodeDetails: string, prompt: string): (m: string)
    ensures AdjustIntro <= m
    ensures OccursAt(m, nodeDetails, |AdjustIntro|)
    ensures OccursAt(m, AdjustBetween, |AdjustIntro| + |nodeDetails|)
    ensures OccursAt(m, prompt, |AdjustIntro| + |nodeDetails| + |AdjustBetween|)
    ensures OccursAt(m, AdjustConstraints, |m| - |AdjustConstraints|)
    ensures |m| == |AdjustIntro| + |nodeDetails| + |AdjustBetween| + |prompt| + |AdjustConstraints|
  {
    OccursInFive(AdjustIntro, nodeDetails, AdjustBetween, prompt, AdjustConstraints);
    AdjustIntro + nodeDetails + AdjustBetween + prompt + AdjustConstraints
  }

  /** The request of `get_adjustment_script`: the adjustment model, no system message, and
      the filled-in template as the only user message. */
  function AdjustRequest(active: Option<SceneObject>, round3: real -> string, prompt: string): (r: Request)
    ensures r.model == AdjustModel && r.system.None?
    ensures r.user == AdjustPrompt(CollectShaderNodes(active, round3), prompt)
  {
    Request(AdjustModel, None, AdjustPrompt(CollectShaderNodes(active, round3), prompt))
  }

  /** `get_adjustment_script`: the code extracted from the reply, or the fallback comment
      when the call raises. */
  function GetAdjustmentScript(
    active: Option<SceneObject>, round3: real -> string, prompt: string,
    complete: Request -> Result<string, string>): (script: string)
    ensures complete(AdjustRequest(active, round3, prompt)).Err? ==> script == ScriptErrorFallback
    ensures complete(AdjustRequest(active, round3, prompt)).Ok? ==>
      script == ExtractPythonCode(complete(AdjustRequest(active, round3, prompt)).value)
  {
    match complete(AdjustRequest(active, round3, prompt))
    case Ok(reply) => ExtractPythonCode(reply)
    case Err(_) => ScriptErrorFallback
  }

  /** The request carries the current node summary and the instruction verbatim. */
  lemma AdjustPromptCarriesContext(nodeDetails: string, prompt: string)
    ensures Contains(AdjustPrompt(nodeDetails, prompt), nodeDetails)
    ensures Contains(AdjustPrompt(nodeDetails, prompt), prompt)
  {
    OccursInFive(AdjustIntro, nodeDetails, AdjustBetween, prompt, AdjustConstraints);
  }

  /** The script is always a fixed point of extraction, whatever the service does: the
      fallback comment holds no fence and is already stripped. */
  lemma AdjustmentScriptIsExtracted(
    active: Option<SceneObject>, round3: real -> string, prompt: string,
    complete: Request -> Result<string, string>)
    ensures var script := GetAdjustmentScript(active, round3, prompt, complete);
      ExtractPythonCode(script) == script
  {
    match complete(AdjustRequest(active, round3, prompt))
    case Ok(reply) =>
      ExtractPythonCodeIdempotent(reply);
    case Err(_) =>
      FallbackIsExtracted();
  }

  lemma FallbackIsExtracted()
    ensures ExtractPythonCode(ScriptErrorFallback) == ScriptErrorFallback
  {
    var fb := ScriptErrorFallback;
    NoBacktickNoFence(fb);
    NoFenceNoPythonMatch(fb);
    assert fb[0] == '#' && fb[|fb| - 1] == 't';
    assert fb == "" + fb + "";
    StripOfConcat("", fb, "");
  }

  /** The report after the script ran. */
  const AdjustedMessage: string := "Material adjusted with AI."

  /** The result of the "Adjust Material with AI" operator. */
  datatype AdjustOutcome = AdjustOutcome(status: Status, report: Report, script: string)

  /** `AITX_OT_adjust_material.execute`: the script is handed to `exec` (which also applies
      `textwrap.dedent`); the operator finishes whether or not it raised. */
  function AdjustMaterial(
    active: Option<SceneObject>, round3: real -> string, prompt: string,
    complete: Request -> Result<string, string>, exec: string -> ExecResult): (out: AdjustOutcome)
    ensures out.status == Finished
    ensures out.script == GetAdjustmentScript(active, round3, prompt, complete)
    ensures out.report.level == Info <==> exec(out.script).Executed?
    ensures exec(out.script).Executed? ==> out.report == Report(Info, AdjustedMessage)
    ensures exec(out.script).Raised? ==>
      out.report.message == "Script execution failed: " + exec(out.script).message
  {
    var script := GetAdjustmentScript(active, round3, prompt, complete);
    match exec(script)
    case Executed => AdjustOutcome(Finished, Report(Info, AdjustedMessage), script)
    case Raised(e) => AdjustOutcome(Finished, Report(Error, "Script execution failed: " + e), script)
  }

  /** When the reply holds a block, the script handed to `exec` is code only: no fence of
      the reply's markdown is left in it. */
  lemma AdjustMaterialRunsBlockCode(
    active: Option<SceneObject>, round3: real -> string, prompt: string,
    complete: Request -> Result<string, string>, exec: string -> ExecResult)
    requires complete(AdjustRequest(active, round3, prompt)).Ok?
    requires HasPythonMatch(complete(AdjustRequest(active, round3, prompt)).value)
    ensures !Contains(AdjustMaterial(active, round3, prompt, complete, exec).script, Fence)
    ensures var script := AdjustMaterial(active, round3, prompt, complete, exec).script;
      ExtractPythonCode(script) == script
  {
    AdjustmentScriptIsExtracted(active, round3, prompt, complete);
  }

  // ===========================================================================
  // AITX_OT_apply_to_object.execute

  /** The state the operator reads and writes: the name stored by "Generate Material", the
      file's material table keyed by name, and the active object. */
  datatype TextureScene = TextureScene(
    generatedMaterialName: string,
    materials: map<string, Material>,
    active: Option<SceneObject>)

  datatype Applied = Applied(status: Status, report: Report, scene: TextureScene)

  const NoGeneratedMaterialMessage: string := "No valid generated material found"
  const NoMeshMessage: string := "No mesh object selected"

  predicate HasGeneratedMaterial(sc: TextureScene) {
    sc.generatedMaterialName != "" && sc.generatedMaterialName in sc.materials
  }

  predicate HasActiveMesh(sc: TextureScene) {
    sc.active.Some? && sc.active.value.objType == MeshType
  }

  /** The slot rule: an object without slots gets the material as its only slot; otherwise
      slot 0 holds the material and every other slot keeps its content. */
  ghost predicate FirstSlotAssigned(before: seq<Option<Material>>, after: seq<Option<Material>>, mat: Material) {
    if before == [] then after == [Some(mat)]
    else |after| == |before| && after[0] == Some(mat) && forall k :: 1 <= k < |before| ==> after[k] == before[k]
  }

  /** `AITX_OT_apply_to_object.execute`. It cancels without changing anything unless a
      generated material is recorded and still exists and the active object is a mesh;
      otherwise it puts the material into the first slot of the active object and changes
      nothing else of the modelled state (in Blender the slots belong to the mesh data, so
      objects sharing it see the change too). */
  function ApplyToObject(sc: TextureScene): (out: Applied)
    ensures out.status == Finished <==> HasGeneratedMaterial(sc) && HasActiveMesh(sc)
    ensures out.status == Cancelled ==> out.scene == sc && out.report.level == Error
    ensures !HasGeneratedMaterial(sc) ==> out.report == Report(Error, NoGeneratedMaterialMessage)
    ensures HasGeneratedMaterial(sc) && !HasActiveMesh(sc) ==> out.report == Report(Error, NoMeshMessage)
    ensures out.status == Finished ==>
      var obj := sc.active.value;
      var mat := sc.materials[sc.generatedMaterialName];
      && out.scene.generatedMaterialName == sc.generatedMaterialName
      && out.scene.materials == sc.materials
      && out.scene.active.Some?
      && out.scene.active.value == obj.(materials := out.scene.active.value.materials)
      && FirstSlotAssigned(obj.materials, out.scene.active.value.materials, mat)
      && out.report == Report(Info, "Applied '" + mat.name + "' to selected object")
  {
    if !HasGeneratedMaterial(sc) then Applied(Cancelled, Report(Error, NoGeneratedMaterialMessage), sc)
    else if !HasActiveMesh(sc) then Applied(Cancelled, Report(Error, NoMeshMessage), sc)
    else
      var obj := sc.active.value;
      var mat := sc.materials[sc.generatedMaterialName];
      var slots := if obj.materials == [] then [Some(mat)] else obj.materials[0 := Some(mat)];
      Applied(Finished, Report(Info, "Applied '" + mat.name + "' to selected object"),
              sc.(active := Some(obj.(materials := slots))))
  }

  /** Applying twice is applying once. */
  lemma ApplyToObjectIdempotent(sc: TextureScene)
    ensures ApplyToObject(ApplyToObject(sc).scene) == ApplyToObject(sc)
  {
    var once := ApplyToObject(sc);
    if once.status == Finished {
      var slots := once.scene.active.value.materials;
      assert slots[0 := slots[0]] == slots;
    }
  }

  /** When the active object's first slot is its active one, the applied material becomes
      its active material, so the node summary describes the generated material. */
  lemma AppliedMaterialIsSummarised(sc: TextureScene, round3: real -> string)
    requires HasGeneratedMaterial(sc) && HasActiveMesh(sc)
    requires sc.active.value.activeMaterialIndex == 0
    requires sc.materials[sc.generatedMaterialName].useNodes
    ensures CollectShaderNodes(ApplyToObject(sc).scene.active, round3)
         == NodesText(sc.materials[sc.generatedMaterialName].nodes, round3)
  {
    var after := ApplyToObject(sc).scene.active.value;
    assert after.materials[0] == Some(sc.materials[sc.generatedMaterialName]);
  }
}

=== FILE: wrappers.dfy ===
/** Optional values and success-or-error results, used for host look-ups and remote replies. */
module Wrappers {

  datatype Option<+T> = None | Some(value: T)

  /** The outcome of a call that may raise: `Ok` carries the value, `Err` the exception text. */
  datatype Result<+T, +E> = Ok(value: T) | Err(error: E)
}
